=== FILE: README.md ===
# zomato-weather-union: the measurement-processing pipeline in Dafny

This project models the run pipeline of the weather-union service. Each run
collects one reading per weather-union station from two providers:

- weather union;
- open weather map.

It stores the run and both reading lists. It then selects the correlated
pairs that are not yet processed: same station, same run, neither side
processed, temperature, humidity and pressure present. For each pair it runs
an external script that estimates the dew-point and wet-bulb temperatures.
It saves the successful calculations. Finally it reconciles the two flags
on every reading:

- `is_processed_for_calculation_temperature` is set for every attempted pair;
- `is_successful_for_calculation_temperature` is set for every pair whose
  calculation succeeded.

The database is an abstract state `Schema.Db`. It holds:

- the run IDs;
- one table per provider, from measurement ID to a row with station, run,
  nullable columns and the two flags;
- the calculation rows.

Every external effect is a parameter, as an oracle or an outcome value:

- UUID generation;
- the two HTTP provider calls, as a Go-style (value, error) pair;
- the script run and the parsing of its JSON output;
- acceptance of each write;
- how far the flag batch got.

Modules follow the program:

- `Utilities` models `DereferenceOrNil`.
- `Schema` holds the records, rows, tables and errors.
- `Providers` models how a reading becomes a row.
- `Measurement` holds the unprocessed-pair selector, the strict-pair
  collector of `models/measurement.go`, and the run-save sequence.
- `ScriptOutput` models the script's JSON object and its decoding.
- `Calculation` holds one calculation, the calculation insert, and the flag
  reconciler.
- `Cron` holds the collection run and the calculation phase of the cron
  binary, and `main`.

The goroutine fan-outs (an errgroup with a mutex-guarded append) are
modelled as sequential folds in input order. In the program the order of
the appended entries depends on scheduling. Three facts hold in every order,
and each is stated:

- which items appear, as membership;
- how often each appears, as a multiset count
  (`Measurement.PairedStationsCount`, `Cron.SuccessesCount`);
- that entry i of the two reading lists comes from the same station,
  because both appends happen under one lock
  (`Measurement.CollectedFromPairedStation`).

Statements that use the input order itself hold for the fold only.

The two collectors disagree, and the model keeps both:

- `models/measurement.go` drops a station unless both provider calls
  succeed (the strict-pair policy).
- The cron binary appends whatever each call returned, error or not.

Neither keeps exactly the readings of the successful calls, a third
possible policy. `Cron.ThreeStationScenario` states both behaviours for
three stations: one succeeds on both providers, and each of the other two
fails on one provider.

## Model

| member | source | states |
|---|---|---|
| Utilities.DereferenceOrNil | server/internal/utilities/utilities.go:5-10 | a nil pointer becomes NULL and a non-nil pointer its pointee, never a zero value |
| Utilities.DereferenceOrNilRoundTrip | server/internal/utilities/utilities.go:5-10 | reading the column back recovers the original pointer (nothing is lost) |
| Utilities.DereferenceOrNilInjective | server/internal/utilities/utilities.go:5-10 | distinct pointers give distinct column values |
| Providers.WeatherUnionRowOf | server/internal/models/weatherUnion.go:148-160 | the stored row keeps station and run, every optional field round-trips through NULL, and it starts unprocessed and unsuccessful |
| Providers.OpenWeatherMapRowOf | server/internal/models/openWeather.go:169-194 | as above for open weather map; the processed flag is written as false |
| Providers.InsertWeatherUnionRows | server/internal/models/weatherUnion.go:109-171 | the table gains exactly the readings' IDs, other rows are untouched, and every inserted row is unflagged |
| Providers.InsertOpenWeatherMapRows | server/internal/models/openWeather.go:104-206 | the same for the open-weather-map table |
| Providers.InsertWeatherUnionStoresRow | server/internal/models/weatherUnion.go:109-171 | a reading whose ID no different reading in the list shares is stored as exactly its own row (station, run, NULL-mapped fields, cleared flags) |
| Providers.InsertOpenWeatherMapStoresRow | server/internal/models/openWeather.go:104-206 | the same for the open-weather-map table |
| Providers.InsertWeatherUnionKeepsInvariant | server/internal/models/weatherUnion.go:109-171 | inserting readings keeps "successful implies processed", since new rows start unflagged |
| Providers.InsertOpenWeatherMapKeepsInvariant | server/internal/models/openWeather.go:104-206 | the same for the open-weather-map table |
| Measurement.SelectUnprocessed | server/internal/models/measurement.go:184-228 | sound and complete: a pair is returned exactly when both readings share station and run, neither is processed, and temperature, humidity and pressure are non-NULL; the values are copied from the rows |
| Measurement.AbsentFieldNeverSelected | server/internal/models/measurement.go:203-208 | a reading stored with an absent temperature, humidity or pressure never appears in a selected pair |
| Measurement.StationError | server/internal/models/measurement.go:62-81 | a station's unit fails exactly when one of its two calls fails; its error is the weather-union error when that call fails, and the open-weather-map error otherwise |
| Measurement.PairedStations | server/internal/models/measurement.go:61-99 | a station contributes exactly when both its provider calls succeed |
| Measurement.PairedStationsCount | server/internal/models/measurement.go:61-99 | no station is duplicated or lost: a station whose two calls succeed occurs as often as in the input, any other not at all |
| Measurement.CollectedFromPairedStation | server/internal/models/measurement.go:83-94 | entry k of both collected lists comes from one and the same station, whose two calls succeeded |
| Measurement.CollectStrictPairs | server/internal/models/measurement.go:56-121 | the two lists have equal length, entry i of each comes from the i-th paired station, and an error is reported exactly when some station's unit failed, as that station's error |
| Measurement.PairedReadingsCollected | server/internal/models/measurement.go:61-99 | every station whose calls both succeed has its two readings in the collected lists |
| Measurement.SaveRunAndMeasurements | server/internal/models/measurement.go:123-180 | the run, weather-union and open-weather-map writes are issued in that order; the first rejected write stops the sequence and is the error; the state reflects exactly the writes done |
| Measurement.RunSavedBeforeMeasurements | server/internal/models/measurement.go:123-147 | readings are stored only when their run was stored first |
| Measurement.SaveRunKeepsInvariant | server/internal/models/measurement.go:123-147 | saving a run keeps "successful implies processed", whichever writes are accepted |
| Measurement.StrictRunInsertsCollected | server/internal/models/measurement.go:123-147 | with every write accepted, the reading tables are the old ones with both collected lists inserted |
| Measurement.GetAndSaveMeasurementsStrict | server/internal/models/measurement.go:28-151 | ID or station-load failure returns before any write; a collection error is only logged, so once the stations are loaded the run succeeds exactly when all three writes are accepted; success records the run; calculations are untouched |
| Measurement.StrictRunStoresPairedReadings | server/internal/models/measurement.go:28-151 | when the run ID is drawn, the stations load and every write is accepted, both readings of every fully successful station are stored under their IDs, each as exactly its own row unless a different collected reading reuses the ID |
| ScriptOutput.ScriptJson | scripts/wet_bulb_temperature.py:47-52 | the printed object has exactly the two members `dew_point_temperature` and `wet_bulb_temperature`, holding the two estimates |
| ScriptOutput.Unmarshal | server/internal/models/calculation.go:33-36 | a field takes the member its tag names, and keeps 0.0 when there is none |
| ScriptOutput.DeclaredTagsLoseScriptValues | server/internal/models/calculation.go:92 | as written, decoding the script's object yields 0.0 and 0.0 for every output |
| ScriptOutput.DeclaredTagsCounterexample | server/internal/models/calculation.go:33-36 | the script reports 12.5 and 20.0 and the decoded struct differs from them |
| ScriptOutput.ScriptTagsRoundTrip | scripts/wet_bulb_temperature.py:47-49 | with tags naming the script's members, decoding returns exactly the printed values |
| Calculation.CalculateTemperatureFromSingleMeasurement | server/internal/models/calculation.go:52-108 | the calculation succeeds exactly when the ID is drawn, the script prints and its output parses; failures in order (ID generation, process, decoding) each yield their own error; a calculation copies both reading IDs, uses the fresh ID and the fixed label, and carries the temperatures decoded under the calculator's field tags |
| Calculation.CalculationLosesScriptValues | server/internal/models/calculation.go:86-105 | as written (tags of lines 34-35): the calculation over the script's object succeeds and stores 0.0 and 0.0, whatever the script printed |
| Calculation.CalculationCarriesScriptValues | scripts/wet_bulb_temperature.py:47-52 | corrected (tags naming the script's members): when the script prints its estimates, the calculation succeeds and stores exactly those estimates against the pair |
| Calculation.CalculationRows | server/internal/models/calculation.go:119-133 | one row per calculation in order, holding the calculation ID, the weather-union ID, the label and both temperatures |
| Calculation.RowsIgnoreOpenWeatherMapId | server/internal/models/calculation.go:125-133 | calculations differing only in their open-weather-map ID give the same rows (that ID is not persisted) |
| Calculation.SaveCalculationsTemperatures | server/internal/models/calculation.go:112-162 | the single COPY either appends all rows and leaves every other table alone, or changes nothing and returns a persistence error |
| Calculation.MeasurementIds | server/internal/models/calculation.go:176-193 | entry i is the chosen provider's reading ID of the i-th attempted pair |
| Calculation.CalculationIds | server/internal/models/calculation.go:197-214 | entry k is the chosen provider's reading ID of the k-th successful calculation |
| Calculation.SetTrue | server/internal/models/calculation.go:219-223 | one `UPDATE ... = TRUE WHERE id = ANY(ids)`: the same keys, only the named flag changes, and it becomes old-or-listed |
| Calculation.ExecBatchWithin | server/internal/models/calculation.go:294-329 | any sequence of the batch's statements changes the reading tables at most by raising listed flags |
| Calculation.ExecFullBatch | server/internal/models/calculation.go:216-302 | the full batch is processed-WU, processed-OWM, successful-WU, successful-OWM, in that order |
| Calculation.SetFlagsTemperature | server/internal/models/calculation.go:166-342 | when the batch succeeds, both tables are reconciled exactly; on a failure a flag error is returned and the tables changed at most by the batch; runs and calculations are untouched |
| Calculation.SetFlagsIdempotent | server/internal/models/calculation.go:216-286 | running the reconciliation twice with the same inputs leaves the state of the first run |
| Calculation.FlagsSetExactly | server/internal/models/calculation.go:174-286 | processed is set exactly on the attempted pairs' readings (or was set before), successful exactly on the successful calculations' readings |
| Calculation.SetFlagsPreservesInvariant | server/internal/models/calculation.go:216-329 | "successful implies processed" survives the batch even when it stops after any prefix, because both processed updates are queued first |
| Calculation.SelectionShrinks | server/internal/models/measurement.go:203-205 | raising flags can only remove pairs from the selection |
| Calculation.AttemptedPairsNotReselected | server/internal/models/calculation.go:216-250 | after reconciliation no selected pair shares a reading with an attempted pair |
| Cron.CollectAppendAlways | server/cmd/cron/main.go:99-153 | one entry per station in each list, in station order, holding whatever the provider returned, error or not |
| Cron.GetAndSaveMeasurementsCron | server/cmd/cron/main.go:73-194 | ID or station-load failure returns before any write; provider errors never fail the run, which succeeds exactly when all three writes are accepted; success records the run; calculations are untouched |
| Cron.CronRunInsertsGathered | server/cmd/cron/main.go:168-190 | with every write accepted, the reading tables are the old ones with both gathered lists inserted |
| Cron.CronRunStoresEveryStation | server/cmd/cron/main.go:99-190 | when the run ID is drawn, the stations load and every write is accepted, every station's two replies are stored under their IDs, failed calls included, each as exactly its own row unless another reply reuses the ID with a different value |
| Cron.CronRunAbsentFieldNeverSelected | server/cmd/cron/main.go:99-190 | end to end: a reply missing temperature or humidity, or pressure, is stored with NULL and never enters a selected pair |
| Cron.ThreeStationScenario | server/cmd/cron/main.go:99-153 | on the three-station example the strict collector keeps one reading per list and reports an error, while the cron collector keeps three per list |
| Cron.CronSaveAbortsOnError | server/cmd/cron/main.go:168-172 | a rejected run insert returns at once and writes nothing |
| Cron.CalculateAll | server/cmd/cron/main.go:218-244 | one outcome per unprocessed pair, each that pair's calculation |
| Cron.Successes | server/cmd/cron/main.go:227-239 | exactly the successful outcomes are kept, failures are dropped, and nothing is lost when all succeed |
| Cron.SuccessesCount | server/cmd/cron/main.go:227-239 | no success is duplicated or lost: each calculation occurs among the successes exactly as often as it succeeded |
| Cron.FirstError | server/cmd/cron/main.go:246-253 | no error exactly when every calculation succeeded, otherwise one of the failures |
| Cron.CalculateAndSaveTemperaturesAllUnprocessed | server/cmd/cron/main.go:198-276 | a query or save failure returns before any flag is set; a calculation error is only logged; the phase succeeds exactly when query, save and batch do; the successes are exactly the pairs whose calculation succeeded; an accepted save appends one calculation row per success, and a completed batch reconciles both reading tables with the queried pairs and the successes; a failed batch returns the flag error and only raises flags on the listed IDs, nothing else in either table changing |
| Cron.PhaseKeepsEachSuccessOnce | server/cmd/cron/main.go:219-259 | the successes the phase collects (whose rows it saves) are the successful outcomes, each exactly as often as it succeeded |
| Cron.SuccessesWithinAttempted | server/cmd/cron/main.go:219-269 | every successful calculation belongs to an attempted pair |
| Cron.PhasePreservesInvariant | server/cmd/cron/main.go:198-276 | "successful implies processed" holds after the phase whatever fails |
| Cron.PhaseConsumesEveryAttemptedPair | server/cmd/cron/main.go:246-272 | a completed phase marks every attempted pair processed on both sides, failed calculations included, and none is selected again |
| Cron.SaveFailureKeepsPairsSelectable | server/cmd/cron/main.go:255-262 | a failed save leaves the selection unchanged, so the pairs are retried next run |
| Cron.PhaseDrainsSelection | server/cmd/cron/main.go:198-276 | when the query returned every selectable pair and the phase completes, nothing is left to select |
| Cron.NewRowsMatchNewSuccessFlags | server/cmd/cron/main.go:255-272 | a weather-union reading is newly flagged successful exactly when a calculation row for it is newly stored |
| Cron.CronMain | server/cmd/cron/main.go:54-68 | a collection error stops the process before any calculation; after a clean collection the process exits cleanly exactly when query, save and flag batch succeed; a clean exit has recorded the run and marked both readings of every queried pair processed |
| Cron.CronMainPreservesInvariant | server/cmd/cron/main.go:54-68 | the whole process keeps "successful implies processed", whatever fails |
| Cron.CronMainDrainsSelection | server/cmd/cron/main.go:54-68 | when the query returns every selectable pair, a clean exit leaves no pair selectable, so no pair is calculated by a later run |

## Findings

| source | as written | input that shows it | evidently intended | confidence | as-written member | corrected member |
|---|---|---|---|---|---|---|
| server/internal/models/calculation.go:33-36 | the `Temperature` struct decodes the JSON members `temperature_dew_point` and `temperature_wet_bulb`, but the script writes `dew_point_temperature` and `wet_bulb_temperature`; `json.Unmarshal` ignores unknown members, so both fields keep 0.0 and no error is raised | the script prints `{"dew_point_temperature": 12.5, "wet_bulb_temperature": 20.0}`; the stored calculation holds 0.0 and 0.0 | the stored temperatures are the values the script printed | high, not executed | ScriptOutput.DeclaredTagsLoseScriptValues | ScriptOutput.ScriptTagsRoundTrip |

`Calculation.CalculateTemperatureFromSingleMeasurement` decodes with the
field tags the calculator carries:

- `ScriptOutput.DeclaredTags` is the program as written.
  `Calculation.CalculationLosesScriptValues` shows that it stores 0.0 and 0.0.
- `ScriptOutput.ScriptTags` is the correction.
  `Calculation.CalculationCarriesScriptValues` shows that it stores the
  script's values.

Every later lemma about the pipeline holds for either choice.

## Left out

- HTTP calls to both providers, their request building, response decoding and timeouts: each call is an oracle returning a value and an optional error. `CallAPIWeatherUnionLocality` and `CallAPIOpenWeatherMap` are not part of this model, so the value they return alongside an error is unconstrained.
- The 10 ms pause between stations in the cron loop, and all logging, including the counts logged before the barrier in `models/measurement.go`: no effect on state.
- Goroutines, the errgroup and the mutex: modelled as sequential folds. The closures at `measurement.go:60-65` and `main.go:219-225` capture the loop variable (`station`, `measurement`) without a copy. The model gives each unit its own element, which holds under the per-iteration loop variables of Go 1.22 and later. Under older Go every unit could see the last element; the module's Go version is not part of this model. The errgroup reports the first error to occur in time, which is nondeterministic; `Cron.FirstError` returns the first in input order and states only that it is one of the failures.
- The PostgreSQL driver, connection pool and the 5-second timeout contexts: every write is accepted or rejected through a parameter. A COPY is a single statement that writes everything or nothing. The flag batch is not assumed atomic; any prefix of its four statements may have taken effect.
- Providers.InsertOpenWeatherMapRows: modelled like the weather-union insert on the line below, with the same overwrite on a repeated ID.
- Providers.InsertWeatherUnionRows: the cron binary calls the bulk inserts `SaveMeasurementsWeatherUnion` and `SaveMeasurementOpenWeatherMap`, which are not part of this model. The insert is modelled on the single-row functions in `weatherUnion.go` and `openWeather.go`, with a repeated ID overwriting instead of failing on the primary key.
- Providers.OpenWeatherMapRowOf: only eight of the open-weather-map columns are modelled (time zone, temperature, feels-like, pressure, humidity, dew point, wind speed and direction). The other columns take no part in selection or calculation. The insert also indexes `WeatherObject[0]`, which fails on an empty list; that is not modelled.
- The column name `is_processed_for_wet_bulb_calculation` in `openWeather.go` differs from the `is_processed_for_calculation_temperature` column the selector and the reconciler use. The model has a single processed flag per row, written as false.
- The numerics of the Python script (MetPy dew point and wet bulb): the script is an oracle from the three arguments to its output; `fmt.Sprint` formatting of the arguments is not modelled (arguments are reals).
- ScriptOutput.Unmarshal: matches member names exactly, whereas Go's decoder also accepts a case-insensitive match. The names involved differ beyond letter case, so the finding is unaffected. JSON syntax errors and NaN output are folded into the parser oracle returning None. The model also takes every non-numeric member as a parse failure. Go's decoder fails only when a tagged member is non-numeric, and ignores untagged ones.
- Both reading inserts leave `is_processed_for_calculation_temperature` and `is_successful_for_calculation_temperature` unset: `weatherUnion.go` writes no flag column, and `openWeather.go` writes a differently named one. The model assumes both columns default to FALSE, as the selector's `= FALSE` tests require; the table definitions are not part of this model. A NULL default would keep every row out of the selection.
- Measurement.PairedStations: its own contract states membership and a length bound. Multiplicity is stated by the separate lemma `Measurement.PairedStationsCount`, because a multiset quantifier in the function's contract floods every caller's proof.
- Cron.Successes: as above, multiplicity is stated by `Cron.SuccessesCount`.
- Cron.CalculateAndSaveTemperaturesAllUnprocessed: its own contract states the successes as membership. `Cron.PhaseKeepsEachSuccessOnce` states the multiset count.
- The order of collected entries and of successes is the input order in the model. In the program it depends on goroutine scheduling, so only membership, multiset counts and the pairing of entry i across the two lists carry over.
- UUID uniqueness: fresh IDs come from an oracle and are not assumed distinct. The calculation ID oracle takes the pair as its argument, so two calculations over the same pair in one model run get the same ID, whereas `uuid.NewRandom()` ignores its context and draws afresh each time; table inserts with a repeated ID overwrite. For that reason `Measurement.StrictRunStoresPairedReadings`, `Cron.CronRunStoresEveryStation` and the two `StoresRow` lemmas promise the exact stored row only when no different reading reuses the ID; otherwise they promise only that the ID is present.
- The selector query's answer is a parameter of the phase and of `main`, None when the query fails, because row order and driver failures are not modelled. `Measurement.SelectUnprocessed` is its reference definition. `Cron.PhaseDrainsSelection` and `Cron.CronMainDrainsSelection` assume the answer contains every selectable pair.
- `GetCalculationsTemperatureWithStationDetails` (the display query of the latest run) and the web server, handlers, middlewares, templates and UI script: read-only presentation, outside the pipeline.
- Configuration, environment and logger setup (`config`, `internal/*.go`, `server/main.go`): start-up plumbing; a failing setup exits before the pipeline runs.
- `GetWeatherStationsAllWeatherUnion`: the station list is a parameter, either a list or an error.

=== FILE: calculation.dfy ===
/**
  server/internal/models/calculation.go: one calculation over a selected
  pair (the external script and its output decoding are oracles), the
  projection of calculations onto rows of the calculations table, and the
  flag reconciler that marks readings processed and successful.
 */
module Calculation {
  import opened Utilities
  import opened Schema
  import opened Measurement
  import opened ScriptOutput

  // ---------------------------------------------------------------------
  // One calculation
  // ---------------------------------------------------------------------

  /** The method label every calculation carries. */
  const MethodLabel: string := "metpy-with-open-weather-map"

  /** The three command-line inputs of the external script. */
  datatype ScriptArgs = ScriptArgs(temperature: real, humidity: real, pressure: real)

  /** What running the script yields: a failed run, or its standard output. */
  datatype ScriptRun = ExitFailure | Printed(stdout: string)

  /** The capabilities a calculation calls out to: a fresh calculation ID
      (None when generation fails), the script, the JSON parsing of its
      output (None when the output is not a JSON object of numbers), and the
      member names the struct fields are decoded from: `DeclaredTags` in
      the program as written, `ScriptTags` once corrected. */
  datatype Calculator = Calculator(
    freshId: MeasurementTemperature -> Option<Uuid>,
    script: ScriptArgs -> ScriptRun,
    parse: string -> Option<JsonObject>,
    tags: FieldTags)

  function ScriptArgsOf(m: MeasurementTemperature): ScriptArgs
  {
    ScriptArgs(m.temperature, m.humidity, m.pressure)
  }

  /** `CalculateTemperatureFromSingleMeasurement`: the ID is drawn first,
      then the script runs, then its output is decoded; the first failure is
      the error and no calculation is produced. A calculation copies both
      measurement IDs of its pair and carries the fixed method label. The
      temperatures are decoded with the calculator's tags. */
  function CalculateTemperatureFromSingleMeasurement(calculator: Calculator, m: MeasurementTemperature)
    : (r: Result<CalculationTemperature, Error>)
    ensures calculator.freshId(m).None? ==> r == Err(IdGenerationError)
    ensures calculator.freshId(m).Some? && calculator.script(ScriptArgsOf(m)).ExitFailure? ==> r == Err(ProcessError)
    ensures (&& calculator.freshId(m).Some?
             && calculator.script(ScriptArgsOf(m)).Printed?
             && calculator.parse(calculator.script(ScriptArgsOf(m)).stdout).None?) ==> r == Err(DecodeError)
    ensures r.Ok? <==> (&& calculator.freshId(m).Some?
                        && calculator.script(ScriptArgsOf(m)).Printed?
                        && calculator.parse(calculator.script(ScriptArgsOf(m)).stdout).Some?)
    ensures r.Ok? ==>
              && r.value.weatherUnionId == m.weatherUnionId
              && r.value.openWeatherMapId == m.openWeatherMapId
              && r.value.methodLabel == MethodLabel
              && calculator.freshId(m) == Some(r.value.calculationId)
              && calculator.script(ScriptArgsOf(m)).Printed?
              && calculator.parse(calculator.script(ScriptArgsOf(m)).stdout).Some?
              && Unmarshal(calculator.parse(calculator.script(ScriptArgsOf(m)).stdout).value, calculator.tags)
                   == Temperature(r.value.dewPoint, r.value.wetBulb)
  {
    match calculator.freshId(m)
    case None => Err(IdGenerationError)
    case Some(calculationId) =>
      match calculator.script(ScriptArgsOf(m))
      case ExitFailure => Err(ProcessError)
      case Printed(stdout) =>
        match calculator.parse(stdout)
        case None => Err(DecodeError)
        case Some(obj) =>
          var t := Unmarshal(obj, calculator.tags);
          Ok(CalculationTemperature(
            calculationId, m.weatherUnionId, m.openWeatherMapId, MethodLabel, t.dewPoint, t.wetBulb))
  }

  /** As written: with the declared tags, a calculation over the script's
      object succeeds but stores 0.0 and 0.0, whatever the script printed. */
  lemma CalculationLosesScriptValues(
    calculator: Calculator, m: MeasurementTemperature, dewPoint: real, wetBulb: real)
    requires calculator.tags == DeclaredTags
    requires calculator.freshId(m).Some?
    requires calculator.script(ScriptArgsOf(m)).Printed?
    requires calculator.parse(calculator.script(ScriptArgsOf(m)).stdout) == Some(ScriptJson(dewPoint, wetBulb))
    ensures var r := CalculateTemperatureFromSingleMeasurement(calculator, m);
            && r.Ok?
            && r.value.dewPoint == 0.0 && r.value.wetBulb == 0.0
            && r.value.weatherUnionId == m.weatherUnionId && r.value.openWeatherMapId == m.openWeatherMapId
  {
    DeclaredTagsLoseScriptValues(dewPoint, wetBulb);
  }

  /** Corrected: with the script's member names as tags, when the ID is
      drawn, the script prints its object for two estimates and the output
      parses to that object, the calculation succeeds and carries exactly
      those two estimates. */
  lemma CalculationCarriesScriptValues(
    calculator: Calculator, m: MeasurementTemperature, dewPoint: real, wetBulb: real)
    requires calculator.tags == ScriptTags
    requires calculator.freshId(m).Some?
    requires calculator.script(ScriptArgsOf(m)).Printed?
    requires calculator.parse(calculator.script(ScriptArgsOf(m)).stdout) == Some(ScriptJson(dewPoint, wetBulb))
    ensures var r := CalculateTemperatureFromSingleMeasurement(calculator, m);
            && r.Ok?
            && r.value.dewPoint == dewPoint && r.value.wetBulb == wetBulb
            && r.value.weatherUnionId == m.weatherUnionId && r.value.openWeatherMapId == m.openWeatherMapId
  {
    ScriptTagsRoundTrip(dewPoint, wetBulb);
  }

  // ---------------------------------------------------------------------
  // Saving calculations
  // ---------------------------------------------------------------------

  function CalculationRowOf(c: CalculationTemperature): CalculationRow
  {
    CalculationRow(c.calculationId, c.weatherUnionId, c.methodLabel, c.dewPoint, c.wetBulb)
  }

  /** The rows of the bulk insert in `SaveCalculationsTemperatures`: one per
      calculation, in order; the open-weather-map ID is not written. */
  function CalculationRows(cs: seq<CalculationTemperature>): (rows: seq<CalculationRow>)
    ensures |rows| == |cs|
    ensures forall i | 0 <= i < |cs| ::
              && rows[i].calculationId == cs[i].calculationId
              && rows[i].weatherUnionId == cs[i].weatherUnionId
              && rows[i].methodLabel == cs[i].methodLabel
              && rows[i].dewPoint == cs[i].dewPoint
              && rows[i].wetBulb == cs[i].wetBulb
    decreases |cs|
  {
    if cs == [] then []
    else
      var rest := CalculationRows(cs[1..]);
      assert forall i | 1 <= i < |cs| :: cs[i] == cs[1..][i - 1];
      [CalculationRowOf(cs[0])] + rest
  }

  /** The persisted rows do not depend on the open-weather-map IDs: two
      calculation lists that differ only there are saved identically. */
  lemma RowsIgnoreOpenWeatherMapId(cs: seq<CalculationTemperature>, cs': seq<CalculationTemperature>)
    requires |cs| == |cs'|
    requires forall i | 0 <= i < |cs| :: cs[i].(openWeatherMapId := cs'[i].openWeatherMapId) == cs'[i]
    ensures CalculationRows(cs) == CalculationRows(cs')
  {
    var rows, rows' := CalculationRows(cs), CalculationRows(cs');
    forall i | 0 <= i < |cs|
      ensures rows[i] == rows'[i]
    {
      assert cs[i].(openWeatherMapId := cs'[i].openWeatherMapId) == cs'[i];
    }
  }

  /** The state after a step and the error it returned, if any. */
  datatype Applied = Applied(db: Db, err: Option<Error>)

  /** `SaveCalculationsTemperatures`: one bulk insert; `ok` says whether the
      database accepts it. A rejected insert writes nothing. */
  function SaveCalculationsTemperatures(db: Db, cs: seq<CalculationTemperature>, ok: bool): (r: Applied)
    ensures !ok ==> r == Applied(db, Some(PersistenceError(InsertCalculations)))
    ensures ok ==> && r.err.None?
                   && r.db.runs == db.runs
                   && r.db.weatherUnion == db.weatherUnion
                   && r.db.openWeatherMap == db.openWeatherMap
                   && |r.db.calculations| == |db.calculations| + |cs|
                   && r.db.calculations[..|db.calculations|] == db.calculations
                   && r.db.calculations[|db.calculations|..] == CalculationRows(cs)
  {
    if !ok then Applied(db, Some(PersistenceError(InsertCalculations)))
    else
      var calculations := db.calculations + CalculationRows(cs);
      assert calculations[..|db.calculations|] == db.calculations;
      assert calculations[|db.calculations|..] == CalculationRows(cs);
      Applied(db.(calculations := calculations), None)
  }

  // ---------------------------------------------------------------------
  // Flag reconciliation
  // ---------------------------------------------------------------------

  datatype ReadingTable = WeatherUnionReadings | OpenWeatherMapReadings

  /** The reading ID of a selected pair in the given table. */
  function PairId(m: MeasurementTemperature, table: ReadingTable): Uuid
  {
    match table
    case WeatherUnionReadings => m.weatherUnionId
    case OpenWeatherMapReadings => m.openWeatherMapId
  }

  /** The reading ID a calculation carries for the given table. */
  function ResultId(c: CalculationTemperature, table: ReadingTable): Uuid
  {
    match table
    case WeatherUnionReadings => c.weatherUnionId
    case OpenWeatherMapReadings => c.openWeatherMapId
  }

  /** The IDs gathered from the attempted pairs, one per pair and in order. */
  function MeasurementIds(ms: seq<MeasurementTemperature>, table: ReadingTable): (ids: seq<Uuid>)
    ensures |ids| == |ms|
    ensures forall i | 0 <= i < |ms| :: ids[i] == PairId(ms[i], table)
    decreases |ms|
  {
    if ms == [] then []
    else
      var rest := MeasurementIds(ms[1..], table);
      assert forall i | 1 <= i < |ms| :: ms[i] == ms[1..][i - 1];
      [PairId(ms[0], table)] + rest
  }

  /** The IDs gathered from the successful calculations, one per calculation and in order. */
  function CalculationIds(cs: seq<CalculationTemperature>, table: ReadingTable): (ids: seq<Uuid>)
    ensures |ids| == |cs|
    ensures forall i | 0 <= i < |cs| :: ids[i] == ResultId(cs[i], table)
    decreases |cs|
  {
    if cs == [] then []
    else
      var rest := CalculationIds(cs[1..], table);
      assert forall i | 1 <= i < |cs| :: cs[i] == cs[1..][i - 1];
      [ResultId(cs[0], table)] + rest
  }

  /** The flags with one column set to TRUE. */
  function Raise(f: Flags, column: FlagColumn): Flags
  {
    match column
    case Processed => f.(processed := true)
    case Successful => f.(successful := true)
  }

  /** `UPDATE <table> SET <column> = TRUE WHERE measurement_id = ANY(ids)`. */
  function SetTrue<C>(t: Table<C>, column: FlagColumn, ids: seq<Uuid>): (t': Table<C>)
    ensures t'.Keys == t.Keys
    ensures forall id | id in t ::
              && t'[id].stationId == t[id].stationId
              && t'[id].runId == t[id].runId
              && t'[id].columns == t[id].columns
    ensures column == Processed ==>
              forall id | id in t ::
                t'[id].flags == Flags(t[id].flags.processed || id in ids, t[id].flags.successful)
    ensures column == Successful ==>
              forall id | id in t ::
                t'[id].flags == Flags(t[id].flags.processed, t[id].flags.successful || id in ids)
  {
    map id | id in t :: if id in ids then t[id].(flags := Raise(t[id].flags, column)) else t[id]
  }

  /** One statement of the flag batch. */
  datatype FlagUpdate = FlagUpdate(table: ReadingTable, column: FlagColumn, ids: seq<Uuid>)

  function ExecFlagUpdate(db: Db, u: FlagUpdate): Db
  {
    match u.table
    case WeatherUnionReadings => db.(weatherUnion := SetTrue(db.weatherUnion, u.column, u.ids))
    case OpenWeatherMapReadings => db.(openWeatherMap := SetTrue(db.openWeatherMap, u.column, u.ids))
  }

  /** The statements of a batch, executed in order. */
  function ExecBatch(db: Db, batch: seq<FlagUpdate>): Db
    decreases |batch|
  {
    if batch == [] then db else ExecBatch(ExecFlagUpdate(db, batch[0]), batch[1..])
  }

  /** The four statements `SetFlagsTemperature` queues, in queue order. */
  function FlagBatch(ms: seq<MeasurementTemperature>, cs: seq<CalculationTemperature>): seq<FlagUpdate>
  {
    [ FlagUpdate(WeatherUnionReadings, Processed, MeasurementIds(ms, WeatherUnionReadings)),
      FlagUpdate(OpenWeatherMapReadings, Processed, MeasurementIds(ms, OpenWeatherMapReadings)),
      FlagUpdate(WeatherUnionReadings, Successful, CalculationIds(cs, WeatherUnionReadings)),
      FlagUpdate(OpenWeatherMapReadings, Successful, CalculationIds(cs, OpenWeatherMapReadings)) ]
  }

  /** How the batch ended: every statement and the close succeeded, or a
      failure was reported after the first `committed` statements took
      effect (atomicity of the batch is not assumed). */
  datatype BatchOutcome = BatchOk | BatchFailed(committed: nat)

  /** Exactly the reconciliation: flags become TRUE on the listed IDs,
      stay as they were elsewhere, and nothing else changes. */
  ghost predicate Reconciled<C>(t: Table<C>, t': Table<C>, processedIds: seq<Uuid>, successfulIds: seq<Uuid>)
  {
    && t'.Keys == t.Keys
    && forall id | id in t ::
         && t'[id].stationId == t[id].stationId
         && t'[id].runId == t[id].runId
         && t'[id].columns == t[id].columns
         && t'[id].flags == Flags(t[id].flags.processed || id in processedIds,
                                  t[id].flags.successful || id in successfulIds)
  }

  /** At most the reconciliation: flags only go from FALSE to TRUE, only on
      the listed IDs, and nothing else changes. */
  ghost predicate RaisedWithin<C>(t: Table<C>, t': Table<C>, processedIds: seq<Uuid>, successfulIds: seq<Uuid>)
  {
    && t'.Keys == t.Keys
    && forall id | id in t ::
         && t'[id].stationId == t[id].stationId
         && t'[id].runId == t[id].runId
         && t'[id].columns == t[id].columns
         && (t[id].flags.processed ==> t'[id].flags.processed)
         && (t[id].flags.successful ==> t'[id].flags.successful)
         && (t'[id].flags.processed ==> t[id].flags.processed || id in processedIds)
         && (t'[id].flags.successful ==> t[id].flags.successful || id in successfulIds)
  }

  /** Both reading tables changed at most by the batch for these pairs and
      calculations; the run and calculation tables are untouched. */
  ghost predicate WithinBatch(db: Db, db': Db, ms: seq<MeasurementTemperature>, cs: seq<CalculationTemperature>)
  {
    && db'.runs == db.runs
    && db'.calculations == db.calculations
    && RaisedWithin(db.weatherUnion, db'.weatherUnion,
                    MeasurementIds(ms, WeatherUnionReadings), CalculationIds(cs, WeatherUnionReadings))
    && RaisedWithin(db.openWeatherMap, db'.openWeatherMap,
                    MeasurementIds(ms, OpenWeatherMapReadings), CalculationIds(cs, OpenWeatherMapReadings))
  }

  lemma RaisedWithinTransitive<C>(t0: Table<C>, t1: Table<C>, t2: Table<C>, p: seq<Uuid>, s: seq<Uuid>)
    requires RaisedWithin(t0, t1, p, s) && RaisedWithin(t1, t2, p, s)
    ensures RaisedWithin(t0, t2, p, s)
  {
  }

  /** Every statement of the batch stays within the batch. */
  lemma ExecFlagUpdateWithin(db: Db, ms: seq<MeasurementTemperature>, cs: seq<CalculationTemperature>, u: FlagUpdate)
    requires u in FlagBatch(ms, cs)
    ensures WithinBatch(db, ExecFlagUpdate(db, u), ms, cs)
  {
  }

  /** Any statements of the batch, executed in any order, stay within the batch. */
  lemma {:induction false} ExecBatchWithin(db: Db, ms: seq<MeasurementTemperature>, cs: seq<CalculationTemperature>, batch: seq<FlagUpdate>)
    requires forall u | u in batch :: u in FlagBatch(ms, cs)
    ensures WithinBatch(db, ExecBatch(db, batch), ms, cs)
    decreases |batch|
  {
    if batch != [] {
      var db1 := ExecFlagUpdate(db, batch[0]);
      ExecFlagUpdateWithin(db, ms, cs, batch[0]);
      assert forall u | u in batch[1..] :: u in batch;
      ExecBatchWithin(db1, ms, cs, batch[1..]);
      var db2 := ExecBatch(db1, batch[1..]);
      RaisedWithinTransitive(db.weatherUnion, db1.weatherUnion, db2.weatherUnion,
        MeasurementIds(ms, WeatherUnionReadings), CalculationIds(cs, WeatherUnionReadings));
      RaisedWithinTransitive(db.openWeatherMap, db1.openWeatherMap, db2.openWeatherMap,
        MeasurementIds(ms, OpenWeatherMapReadings), CalculationIds(cs, OpenWeatherMapReadings));
    }
  }

  /** The state after the whole batch, table by table. */
  lemma ExecFullBatch(db: Db, ms: seq<MeasurementTemperature>, cs: seq<CalculationTemperature>)
    ensures var b := FlagBatch(ms, cs);
            ExecBatch(db, b) ==
              db.(weatherUnion := SetTrue(SetTrue(db.weatherUnion, Processed, b[0].ids), Successful, b[2].ids),
                  openWeatherMap := SetTrue(SetTrue(db.openWeatherMap, Processed, b[1].ids), Successful, b[3].ids))
  {
    var b := FlagBatch(ms, cs);
    var db1 := ExecFlagUpdate(db, b[0]);
    var db2 := ExecFlagUpdate(db1, b[1]);
    var db3 := ExecFlagUpdate(db2, b[2]);
    var db4 := ExecFlagUpdate(db3, b[3]);
    assert b[1..][1..][1..][1..] == [];
    assert ExecBatch(db, b) == ExecBatch(db1, b[1..]);
    assert ExecBatch(db1, b[1..]) == ExecBatch(db2, b[1..][1..]);
    assert ExecBatch(db2, b[1..][1..]) == ExecBatch(db3, b[1..][1..][1..]);
    assert ExecBatch(db3, b[1..][1..][1..]) == ExecBatch(db4, []);
  }

  /** `SetFlagsTemperature`: gathers the IDs of the attempted pairs and of
      the successful calculations and runs the four updates as one batch.
      On success both tables are reconciled exactly; on a failure the error
      is returned and the tables are changed at most by the batch. */
  function SetFlagsTemperature(
    db: Db, ms: seq<MeasurementTemperature>, cs: seq<CalculationTemperature>, outcome: BatchOutcome)
    : (r: Applied)
    ensures r.db.runs == db.runs && r.db.calculations == db.calculations
    ensures outcome.BatchOk? ==>
              && r.err.None?
              && Reconciled(db.weatherUnion, r.db.weatherUnion,
                            MeasurementIds(ms, WeatherUnionReadings), CalculationIds(cs, WeatherUnionReadings))
              && Reconciled(db.openWeatherMap, r.db.openWeatherMap,
                            MeasurementIds(ms, OpenWeatherMapReadings), CalculationIds(cs, OpenWeatherMapReadings))
    ensures outcome.BatchFailed? ==> r.err == Some(FlagUpdateError) && WithinBatch(db, r.db, ms, cs)
  {
    var batch := FlagBatch(ms, cs);
    match outcome
    case BatchOk =>
      ExecFullBatch(db, ms, cs);
      Applied(ExecBatch(db, batch), None)
    case BatchFailed(committed) =>
      var done := if committed < |batch| then batch[..committed] else batch;
      assert forall u | u in done :: u in batch;
      ExecBatchWithin(db, ms, cs, done);
      Applied(ExecBatch(db, done), Some(FlagUpdateError))
  }

  // ---------------------------------------------------------------------
  // Properties of the reconciler
  // ---------------------------------------------------------------------

  lemma ReconciledTwice<C>(t: Table<C>, t1: Table<C>, t2: Table<C>, p: seq<Uuid>, s: seq<Uuid>)
    requires Reconciled(t, t1, p, s) && Reconciled(t1, t2, p, s)
    ensures t2 == t1
  {
    forall id | id in t1
      ensures t2[id] == t1[id]
    {
    }
  }

  /** Reconciliation only assigns TRUE, so running it a second time with the
      same pairs and calculations leaves the state of the first run. */
  lemma SetFlagsIdempotent(db: Db, ms: seq<MeasurementTemperature>, cs: seq<CalculationTemperature>)
    ensures var once := SetFlagsTemperature(db, ms, cs, BatchOk).db;
            SetFlagsTemperature(once, ms, cs, BatchOk).db == once
  {
    var once := SetFlagsTemperature(db, ms, cs, BatchOk).db;
    var twice := SetFlagsTemperature(once, ms, cs, BatchOk).db;
    ReconciledTwice(db.weatherUnion, once.weatherUnion, twice.weatherUnion,
      MeasurementIds(ms, WeatherUnionReadings), CalculationIds(cs, WeatherUnionReadings));
    ReconciledTwice(db.openWeatherMap, once.openWeatherMap, twice.openWeatherMap,
      MeasurementIds(ms, OpenWeatherMapReadings), CalculationIds(cs, OpenWeatherMapReadings));
  }

  /** A reading ID is gathered exactly when some attempted pair carries it. */
  lemma MeasurementIdsHold(ms: seq<MeasurementTemperature>, table: ReadingTable, id: Uuid)
    ensures id in MeasurementIds(ms, table) <==> exists i | 0 <= i < |ms| :: PairId(ms[i], table) == id
  {
    var ids := MeasurementIds(ms, table);
    if id in ids { var i :| 0 <= i < |ids| && ids[i] == id; assert PairId(ms[i], table) == id; }
  }

  /** A reading ID is gathered exactly when some successful calculation carries it. */
  lemma CalculationIdsHold(cs: seq<CalculationTemperature>, table: ReadingTable, id: Uuid)
    ensures id in CalculationIds(cs, table) <==> exists k | 0 <= k < |cs| :: ResultId(cs[k], table) == id
  {
    var ids := CalculationIds(cs, table);
    if id in ids { var k :| 0 <= k < |ids| && ids[k] == id; assert ResultId(cs[k], table) == id; }
  }

  /** The processed flag ends up set on exactly the reading IDs of the
      attempted pairs (and on rows that had it already); the successful flag
      on exactly the IDs the successful calculations carry. */
  lemma FlagsSetExactly(db: Db, ms: seq<MeasurementTemperature>, cs: seq<CalculationTemperature>, id: Uuid)
    ensures var after := SetFlagsTemperature(db, ms, cs, BatchOk).db;
            && (id in db.weatherUnion ==>
                  && (after.weatherUnion[id].flags.processed <==>
                        db.weatherUnion[id].flags.processed || exists i | 0 <= i < |ms| :: ms[i].weatherUnionId == id)
                  && (after.weatherUnion[id].flags.successful <==>
                        db.weatherUnion[id].flags.successful || exists k | 0 <= k < |cs| :: cs[k].weatherUnionId == id))
            && (id in db.openWeatherMap ==>
                  && (after.openWeatherMap[id].flags.processed <==>
                        db.openWeatherMap[id].flags.processed || exists i | 0 <= i < |ms| :: ms[i].openWeatherMapId == id)
                  && (after.openWeatherMap[id].flags.successful <==>
                        db.openWeatherMap[id].flags.successful || exists k | 0 <= k < |cs| :: cs[k].openWeatherMapId == id))
  {
    var after := SetFlagsTemperature(db, ms, cs, BatchOk).db;
    MeasurementIdsHold(ms, WeatherUnionReadings, id);
    MeasurementIdsHold(ms, OpenWeatherMapReadings, id);
    CalculationIdsHold(cs, WeatherUnionReadings, id);
    CalculationIdsHold(cs, OpenWeatherMapReadings, id);
    if id in db.weatherUnion {
      assert after.weatherUnion[id].flags ==
        Flags(db.weatherUnion[id].flags.processed || id in MeasurementIds(ms, WeatherUnionReadings),
              db.weatherUnion[id].flags.successful || id in CalculationIds(cs, WeatherUnionReadings));
    }
    if id in db.openWeatherMap {
      assert after.openWeatherMap[id].flags ==
        Flags(db.openWeatherMap[id].flags.processed || id in MeasurementIds(ms, OpenWeatherMapReadings),
              db.openWeatherMap[id].flags.successful || id in CalculationIds(cs, OpenWeatherMapReadings));
    }
  }

  /** Every successful calculation belongs to one of the attempted pairs. */
  ghost predicate SucceededWithinAttempted(ms: seq<MeasurementTemperature>, cs: seq<CalculationTemperature>)
  {
    forall k | 0 <= k < |cs| :: exists i | 0 <= i < |ms| ::
      ms[i].weatherUnionId == cs[k].weatherUnionId && ms[i].openWeatherMapId == cs[k].openWeatherMapId
  }

  lemma SucceededIdsAttempted(ms: seq<MeasurementTemperature>, cs: seq<CalculationTemperature>, table: ReadingTable)
    requires SucceededWithinAttempted(ms, cs)
    ensures forall id | id in CalculationIds(cs, table) :: id in MeasurementIds(ms, table)
  {
    var p, s := MeasurementIds(ms, table), CalculationIds(cs, table);
    forall id | id in s
      ensures id in p
    {
      var k :| 0 <= k < |s| && s[k] == id;
      var i :| 0 <= i < |ms| && ms[i].weatherUnionId == cs[k].weatherUnionId && ms[i].openWeatherMapId == cs[k].openWeatherMapId;
      assert p[i] == id;
    }
  }

  lemma RaiseProcessedKeepsInvariant<C>(t: Table<C>, ids: seq<Uuid>)
    requires SuccessfulIsProcessed(t)
    ensures SuccessfulIsProcessed(SetTrue(t, Processed, ids))
  {
  }

  lemma RaiseSuccessfulKeepsInvariant<C>(t: Table<C>, ids: seq<Uuid>)
    requires SuccessfulIsProcessed(t)
    requires forall id | id in ids && id in t :: t[id].flags.processed
    ensures SuccessfulIsProcessed(SetTrue(t, Successful, ids))
  {
  }

  /** The states after each prefix of the batch. */
  lemma ExecBatchPrefixes(db: Db, ms: seq<MeasurementTemperature>, cs: seq<CalculationTemperature>)
    ensures var b := FlagBatch(ms, cs);
            var db1 := ExecFlagUpdate(db, b[0]);
            var db2 := ExecFlagUpdate(db1, b[1]);
            var db3 := ExecFlagUpdate(db2, b[2]);
            && ExecBatch(db, b[..0]) == db
            && ExecBatch(db, b[..1]) == db1
            && ExecBatch(db, b[..2]) == db2
            && ExecBatch(db, b[..3]) == db3
            && ExecBatch(db, b) == ExecFlagUpdate(db3, b[3])
  {
    var b := FlagBatch(ms, cs);
    var db1 := ExecFlagUpdate(db, b[0]);
    var db2 := ExecFlagUpdate(db1, b[1]);
    var db3 := ExecFlagUpdate(db2, b[2]);
    var db4 := ExecFlagUpdate(db3, b[3]);
    assert ExecBatch(db3, [b[3]]) == db4 by { assert [b[3]][1..] == []; }
    assert ExecBatch(db2, [b[2]]) == db3 by { assert [b[2]][1..] == []; }
    assert ExecBatch(db1, [b[1]]) == db2 by { assert [b[1]][1..] == []; }
    assert ExecBatch(db, [b[0]]) == db1 by { assert [b[0]][1..] == []; }
    assert ExecBatch(db2, [b[2], b[3]]) == db4 by { assert [b[2], b[3]][1..] == [b[3]]; }
    assert ExecBatch(db1, [b[1], b[2]]) == db3 by { assert [b[1], b[2]][1..] == [b[2]]; }
    assert ExecBatch(db, [b[0], b[1]]) == db2 by { assert [b[0], b[1]][1..] == [b[1]]; }
    assert ExecBatch(db1, [b[1], b[2], b[3]]) == db4 by { assert [b[1], b[2], b[3]][1..] == [b[2], b[3]]; }
    assert ExecBatch(db, [b[0], b[1], b[2]]) == db3 by { assert [b[0], b[1], b[2]][1..] == [b[1], b[2]]; }
    assert ExecBatch(db, b) == db4 by { assert b[1..] == [b[1], b[2], b[3]]; }
    assert b[..1] == [b[0]];
    assert b[..2] == [b[0], b[1]];
    assert b[..3] == [b[0], b[1], b[2]];
  }

  /** Every intermediate state of the batch keeps "successful implies processed". */
  lemma BatchStepsKeepInvariant(db: Db, ms: seq<MeasurementTemperature>, cs: seq<CalculationTemperature>)
    requires SuccessImpliesProcessed(db)
    requires SucceededWithinAttempted(ms, cs)
    ensures var b := FlagBatch(ms, cs);
            var db1 := ExecFlagUpdate(db, b[0]);
            var db2 := ExecFlagUpdate(db1, b[1]);
            var db3 := ExecFlagUpdate(db2, b[2]);
            && SuccessImpliesProcessed(db1)
            && SuccessImpliesProcessed(db2)
            && SuccessImpliesProcessed(db3)
            && SuccessImpliesProcessed(ExecFlagUpdate(db3, b[3]))
  {
    var b := FlagBatch(ms, cs);
    var db1 := ExecFlagUpdate(db, b[0]);
    var db2 := ExecFlagUpdate(db1, b[1]);
    var db3 := ExecFlagUpdate(db2, b[2]);
    SucceededIdsAttempted(ms, cs, WeatherUnionReadings);
    SucceededIdsAttempted(ms, cs, OpenWeatherMapReadings);
    RaiseProcessedKeepsInvariant(db.weatherUnion, b[0].ids);
    RaiseProcessedKeepsInvariant(db1.openWeatherMap, b[1].ids);
    RaiseSuccessfulKeepsInvariant(db2.weatherUnion, b[2].ids);
    RaiseSuccessfulKeepsInvariant(db3.openWeatherMap, b[3].ids);
  }

  /** If every successful calculation belongs to an attempted pair, then
      "successful implies processed" survives the batch, also when the batch
      fails after any number of statements: the two processed updates are
      queued before the two successful updates. */
  lemma SetFlagsPreservesInvariant(
    db: Db, ms: seq<MeasurementTemperature>, cs: seq<CalculationTemperature>, outcome: BatchOutcome)
    requires SuccessImpliesProcessed(db)
    requires SucceededWithinAttempted(ms, cs)
    ensures SuccessImpliesProcessed(SetFlagsTemperature(db, ms, cs, outcome).db)
  {
    ExecBatchPrefixes(db, ms, cs);
    BatchStepsKeepInvariant(db, ms, cs);
    var b := FlagBatch(ms, cs);
    if outcome.BatchFailed? && outcome.committed < |b| {
      assert outcome.committed in {0, 1, 2, 3};
    }
  }

  /** Raising flags can only remove pairs from the selection. */
  lemma SelectionShrinks(db: Db, db': Db, ms: seq<MeasurementTemperature>, cs: seq<CalculationTemperature>)
    requires WithinBatch(db, db', ms, cs)
    ensures SelectUnprocessed(db') <= SelectUnprocessed(db)
  {
    forall p | p in SelectUnprocessed(db')
      ensures p in SelectUnprocessed(db)
    {
      var w, o := db.weatherUnion[p.weatherUnionId], db.openWeatherMap[p.openWeatherMapId];
      assert Eligible(w, o);
      assert p == PairOf(p.weatherUnionId, w, p.openWeatherMapId, o);
    }
  }

  lemma ReconciledIsWithin<C>(t: Table<C>, t': Table<C>, p: seq<Uuid>, s: seq<Uuid>)
    requires Reconciled(t, t', p, s)
    ensures RaisedWithin(t, t', p, s)
  {
  }

  /** After reconciliation no attempted pair, nor any other pair sharing a
      reading with one, is returned by the selector again. */
  lemma AttemptedPairsNotReselected(db: Db, ms: seq<MeasurementTemperature>, cs: seq<CalculationTemperature>)
    ensures var after := SetFlagsTemperature(db, ms, cs, BatchOk).db;
            forall p, i | p in SelectUnprocessed(after) && 0 <= i < |ms| ::
              p.weatherUnionId != ms[i].weatherUnionId && p.openWeatherMapId != ms[i].openWeatherMapId
  {
    var after := SetFlagsTemperature(db, ms, cs, BatchOk).db;
    var pw, po := MeasurementIds(ms, WeatherUnionReadings), MeasurementIds(ms, OpenWeatherMapReadings);
    forall p, i | p in SelectUnprocessed(after) && 0 <= i < |ms|
      ensures p.weatherUnionId != ms[i].weatherUnionId && p.openWeatherMapId != ms[i].openWeatherMapId
    {
      assert pw[i] == ms[i].weatherUnionId;
      assert po[i] == ms[i].openWeatherMapId;
    }
  }
}

=== FILE: cron.dfy ===
/**
  server/cmd/cron/main.go: the collection run of the cron binary, which
  appends one entry per station to each reading list whatever the provider
  calls returned, and the calculation phase, which calculates every
  unprocessed pair, keeps the successes, logs the first error, saves, and
  reconciles the flags over every attempted pair.
 */
module Cron {
  import opened Utilities
  import opened Schema
  import opened Providers
  import opened Measurement
  import opened Calculation

  // ---------------------------------------------------------------------
  // Collection
  // ---------------------------------------------------------------------

  /** The two reading lists the sequential station loop builds. */
  datatype Gathered = Gathered(
    weatherUnion: seq<WeatherUnionMeasurement>,
    openWeatherMap: seq<OpenWeatherMapMeasurement>)

  /** The station loop of `GetAndSaveMeasurementsFromAPISingleRun`: for each
      station in turn, both providers are called with the run's ID and
      their values are appended, an error being only logged. Entry i of each
      list belongs to station i. */
  function CollectAppendAlways(providers: ProviderCalls, runId: Uuid, stations: seq<Station>): (g: Gathered)
    ensures |g.weatherUnion| == |stations| && |g.openWeatherMap| == |stations|
    ensures forall i | 0 <= i < |stations| ::
              && g.weatherUnion[i] == providers.weatherUnion(stations[i], runId).value
              && g.openWeatherMap[i] == providers.openWeatherMap(stations[i], runId).value
    decreases |stations|
  {
    if stations == [] then Gathered([], [])
    else
      var last := stations[|stations| - 1];
      var g := CollectAppendAlways(providers, runId, stations[..|stations| - 1]);
      Gathered(
        g.weatherUnion + [providers.weatherUnion(last, runId).value],
        g.openWeatherMap + [providers.openWeatherMap(last, runId).value])
  }

  /** `GetAndSaveMeasurementsFromAPISingleRun` of the cron binary: one run ID
      is drawn, the stations are loaded, every station is collected under
      that ID, and the run and both lists are saved in that order. */
  function GetAndSaveMeasurementsCron(
    db: Db, newRunId: Option<Uuid>, stations: Result<seq<Station>, Error>,
    providers: ProviderCalls, storeOk: StorageOp -> bool): (r: Stored)
    ensures newRunId.None? ==> r == Stored(db, [], Some(IdGenerationError))
    ensures newRunId.Some? && stations.Err? ==> r == Stored(db, [], Some(stations.error))
    ensures r.err.None? ==> newRunId.Some? && stations.Ok? && r.db.runs == db.runs + {newRunId.value}
    ensures newRunId.Some? && stations.Ok? ==>
              (r.err.None? <==> forall k | 0 <= k < |RunWrites| :: storeOk(RunWrites[k]))
    ensures r.db.calculations == db.calculations
  {
    match newRunId
    case None => Stored(db, [], Some(IdGenerationError))
    case Some(runId) =>
      match stations
      case Err(e) => Stored(db, [], Some(e))
      case Ok(ss) =>
        var g := CollectAppendAlways(providers, runId, ss);
        SaveRunAndMeasurements(db, runId, g.weatherUnion, g.openWeatherMap, storeOk)
  }

  /** With the ID drawn, the stations loaded and every write accepted, the
      reading tables are the old ones with both gathered lists inserted. */
  lemma CronRunInsertsGathered(
    db: Db, newRunId: Option<Uuid>, stations: Result<seq<Station>, Error>,
    providers: ProviderCalls, storeOk: StorageOp -> bool)
    requires newRunId.Some? && stations.Ok?
    requires forall k | 0 <= k < |RunWrites| :: storeOk(RunWrites[k])
    ensures var g := CollectAppendAlways(providers, newRunId.value, stations.value);
            var r := GetAndSaveMeasurementsCron(db, newRunId, stations, providers, storeOk);
            && r.db.weatherUnion == InsertWeatherUnionRows(db.weatherUnion, g.weatherUnion)
            && r.db.openWeatherMap == InsertOpenWeatherMapRows(db.openWeatherMap, g.openWeatherMap)
  {
    assert storeOk(RunWrites[0]) && storeOk(RunWrites[1]) && storeOk(RunWrites[2]);
  }

  /** After a cron collection run whose writes all succeed, every station,
      including one whose provider call failed, has the value each provider
      returned stored under its measurement ID, as exactly that value's row
      unless another station's reply carries the same ID with a different
      value. */
  lemma CronRunStoresEveryStation(
    db: Db, newRunId: Option<Uuid>, stations: Result<seq<Station>, Error>,
    providers: ProviderCalls, storeOk: StorageOp -> bool, i: nat)
    requires newRunId.Some? && stations.Ok?
    requires forall k | 0 <= k < |RunWrites| :: storeOk(RunWrites[k])
    requires i < |stations.value|
    ensures var r := GetAndSaveMeasurementsCron(db, newRunId, stations, providers, storeOk);
            var wm := providers.weatherUnion(stations.value[i], newRunId.value).value;
            && wm.measurementId in r.db.weatherUnion
            && ((forall k | 0 <= k < |stations.value| &&
                            providers.weatherUnion(stations.value[k], newRunId.value).value.measurementId == wm.measurementId ::
                   providers.weatherUnion(stations.value[k], newRunId.value).value == wm)
                ==> r.db.weatherUnion[wm.measurementId] == WeatherUnionRowOf(wm))
    ensures var r := GetAndSaveMeasurementsCron(db, newRunId, stations, providers, storeOk);
            var om := providers.openWeatherMap(stations.value[i], newRunId.value).value;
            && om.measurementId in r.db.openWeatherMap
            && ((forall k | 0 <= k < |stations.value| &&
                            providers.openWeatherMap(stations.value[k], newRunId.value).value.measurementId == om.measurementId ::
                   providers.openWeatherMap(stations.value[k], newRunId.value).value == om)
                ==> r.db.openWeatherMap[om.measurementId] == OpenWeatherMapRowOf(om))
  {
    var runId := newRunId.value;
    var g := CollectAppendAlways(providers, runId, stations.value);
    var r := GetAndSaveMeasurementsCron(db, newRunId, stations, providers, storeOk);
    CronRunInsertsGathered(db, newRunId, stations, providers, storeOk);
    var wm, om := g.weatherUnion[i], g.openWeatherMap[i];
    assert wm.measurementId in (set k | 0 <= k < |g.weatherUnion| :: g.weatherUnion[k].measurementId);
    assert om.measurementId in (set k | 0 <= k < |g.openWeatherMap| :: g.openWeatherMap[k].measurementId);
    if forall k | 0 <= k < |stations.value| &&
                  providers.weatherUnion(stations.value[k], runId).value.measurementId == wm.measurementId ::
         providers.weatherUnion(stations.value[k], runId).value == wm {
      forall k | 0 <= k < |g.weatherUnion| && g.weatherUnion[k].measurementId == wm.measurementId
        ensures g.weatherUnion[k] == wm
      {
        assert g.weatherUnion[k] == providers.weatherUnion(stations.value[k], runId).value;
      }
      InsertWeatherUnionStoresRow(db.weatherUnion, g.weatherUnion, i);
    }
    if forall k | 0 <= k < |stations.value| &&
                  providers.openWeatherMap(stations.value[k], runId).value.measurementId == om.measurementId ::
         providers.openWeatherMap(stations.value[k], runId).value == om {
      forall k | 0 <= k < |g.openWeatherMap| && g.openWeatherMap[k].measurementId == om.measurementId
        ensures g.openWeatherMap[k] == om
      {
        assert g.openWeatherMap[k] == providers.openWeatherMap(stations.value[k], runId).value;
      }
      InsertOpenWeatherMapStoresRow(db.openWeatherMap, g.openWeatherMap, i);
    }
  }

  /** End to end: a reply missing temperature or humidity (weather union) or
      pressure (open weather map) is stored with NULL there, and so never
      enters a selected pair, provided no other station's reply reuses its ID. */
  lemma CronRunAbsentFieldNeverSelected(
    db: Db, newRunId: Option<Uuid>, stations: Result<seq<Station>, Error>,
    providers: ProviderCalls, storeOk: StorageOp -> bool, i: nat)
    requires newRunId.Some? && stations.Ok?
    requires forall k | 0 <= k < |RunWrites| :: storeOk(RunWrites[k])
    requires i < |stations.value|
    requires forall k | 0 <= k < |stations.value| &&
                        providers.weatherUnion(stations.value[k], newRunId.value).value.measurementId ==
                          providers.weatherUnion(stations.value[i], newRunId.value).value.measurementId ::
               providers.weatherUnion(stations.value[k], newRunId.value).value ==
                 providers.weatherUnion(stations.value[i], newRunId.value).value
    requires forall k | 0 <= k < |stations.value| &&
                        providers.openWeatherMap(stations.value[k], newRunId.value).value.measurementId ==
                          providers.openWeatherMap(stations.value[i], newRunId.value).value.measurementId ::
               providers.openWeatherMap(stations.value[k], newRunId.value).value ==
                 providers.openWeatherMap(stations.value[i], newRunId.value).value
    ensures var r := GetAndSaveMeasurementsCron(db, newRunId, stations, providers, storeOk);
            var wm := providers.weatherUnion(stations.value[i], newRunId.value).value;
            wm.data.temperature.None? || wm.data.humidity.None? ==>
              forall p | p in SelectUnprocessed(r.db) :: p.weatherUnionId != wm.measurementId
    ensures var r := GetAndSaveMeasurementsCron(db, newRunId, stations, providers, storeOk);
            var om := providers.openWeatherMap(stations.value[i], newRunId.value).value;
            om.data.pressure.None? ==>
              forall p | p in SelectUnprocessed(r.db) :: p.openWeatherMapId != om.measurementId
  {
    var r := GetAndSaveMeasurementsCron(db, newRunId, stations, providers, storeOk);
    CronRunStoresEveryStation(db, newRunId, stations, providers, storeOk, i);
    AbsentFieldNeverSelected(r.db,
      providers.weatherUnion(stations.value[i], newRunId.value).value,
      providers.openWeatherMap(stations.value[i], newRunId.value).value);
  }

  /** Three stations: the first succeeds on both providers, the second fails
      on weather union, the third on open weather map. The strict collector
      keeps one reading per list (the first station's) and reports an error;
      the cron collector keeps three per list, failed replies included. */
  lemma ThreeStationScenario(
    providers: ProviderCalls, runId: Uuid, s1: Station, s2: Station, s3: Station)
    requires BothSucceed(providers, runId, s1)
    requires providers.weatherUnion(s2, runId).err.Some? && providers.openWeatherMap(s2, runId).err.None?
    requires providers.weatherUnion(s3, runId).err.None? && providers.openWeatherMap(s3, runId).err.Some?
    ensures var c := CollectStrictPairs(providers, runId, [s1, s2, s3]);
            && c.weatherUnion == [providers.weatherUnion(s1, runId).value]
            && c.openWeatherMap == [providers.openWeatherMap(s1, runId).value]
            && c.firstError.Some?
    ensures var g := CollectAppendAlways(providers, runId, [s1, s2, s3]);
            && |g.weatherUnion| == 3 && |g.openWeatherMap| == 3
            && g.weatherUnion[1] == providers.weatherUnion(s2, runId).value
            && g.openWeatherMap[2] == providers.openWeatherMap(s3, runId).value
  {
    var ss := [s1, s2, s3];
    assert ss[1..] == [s2, s3] && ss[1..][1..] == [s3] && ss[1..][1..][1..] == [];
    assert PairedStations(providers, runId, [s3]) == [];
    assert PairedStations(providers, runId, [s2, s3]) == [];
    assert PairedStations(providers, runId, ss) == [s1];
    assert s2 in ss && !BothSucceed(providers, runId, s2);
  }

  /** A persistence error stops the run: nothing after the failing write is issued. */
  lemma CronSaveAbortsOnError(
    db: Db, newRunId: Option<Uuid>, stations: Result<seq<Station>, Error>,
    providers: ProviderCalls, storeOk: StorageOp -> bool)
    requires newRunId.Some? && stations.Ok?
    requires !storeOk(InsertRun)
    ensures var r := GetAndSaveMeasurementsCron(db, newRunId, stations, providers, storeOk);
            r.db == db && r.written == [] && r.err == Some(PersistenceError(InsertRun))
  {
  }

  // ---------------------------------------------------------------------
  // Calculation phase
  // ---------------------------------------------------------------------

  /** The outcome of each pair's calculation, in pair order. */
  function CalculateAll(calculator: Calculator, ms: seq<MeasurementTemperature>)
    : (outcomes: seq<Result<CalculationTemperature, Error>>)
    ensures |outcomes| == |ms|
    ensures forall i | 0 <= i < |ms| :: outcomes[i] == CalculateTemperatureFromSingleMeasurement(calculator, ms[i])
    decreases |ms|
  {
    if ms == [] then []
    else
      var rest := CalculateAll(calculator, ms[1..]);
      assert forall i | 1 <= i < |ms| :: ms[i] == ms[1..][i - 1];
      [CalculateTemperatureFromSingleMeasurement(calculator, ms[0])] + rest
  }

  /** The calculations the workers append under the lock: the successful
      outcomes, failures left out. */
  function Successes(outcomes: seq<Result<CalculationTemperature, Error>>): (cs: seq<CalculationTemperature>)
    ensures |cs| <= |outcomes|
    ensures forall c :: c in cs <==> Ok(c) in outcomes
    ensures |cs| == |outcomes| <==> forall i | 0 <= i < |outcomes| :: outcomes[i].Ok?
    decreases |outcomes|
  {
    if outcomes == [] then []
    else
      var rest := Successes(outcomes[1..]);
      assert outcomes == [outcomes[0]] + outcomes[1..];
      assert forall i | 1 <= i < |outcomes| :: outcomes[i] == outcomes[1..][i - 1];
      match outcomes[0]
      case Ok(c) => [c] + rest
      case Err(_) => rest
  }

  /** No success is duplicated or lost: each calculation occurs among the
      successes exactly as often as it succeeded. */
  lemma {:induction false} SuccessesCount(outcomes: seq<Result<CalculationTemperature, Error>>, c: CalculationTemperature)
    ensures multiset(Successes(outcomes))[c] == multiset(outcomes)[Ok(c)]
    decreases |outcomes|
  {
    if outcomes != [] {
      assert outcomes == [outcomes[0]] + outcomes[1..];
      assert multiset(outcomes) == multiset([outcomes[0]]) + multiset(outcomes[1..]);
      SuccessesCount(outcomes[1..], c);
    }
  }

  /** The error the wait barrier reports: one of the failures, if any. */
  function FirstError(outcomes: seq<Result<CalculationTemperature, Error>>): (e: Option<Error>)
    ensures e.None? <==> forall i | 0 <= i < |outcomes| :: outcomes[i].Ok?
    ensures e.Some? ==> Err(e.value) in outcomes
    decreases |outcomes|
  {
    if outcomes == [] then None
    else
      var rest := FirstError(outcomes[1..]);
      assert outcomes == [outcomes[0]] + outcomes[1..];
      assert forall i | 1 <= i < |outcomes| :: outcomes[i] == outcomes[1..][i - 1];
      match outcomes[0]
      case Err(e) => Some(e)
      case Ok(_) => rest
  }

  /** The state after the phase, the successful calculations, the error
      that was only logged, and the error the phase returned. */
  datatype Phase = Phase(
    db: Db,
    successes: seq<CalculationTemperature>,
    logged: Option<Error>,
    err: Option<Error>)

  /** `CalculateAndSaveTemperaturesAllUnprocessed`. `query` is what the
      selector query returned (None when it failed), `saveOk` whether the
      calculations insert is accepted, `flags` how the flag batch ended. A
      calculation error is logged; saving and flag setting still run over
      all attempted pairs; a failed save returns before any flag is set. */
  function CalculateAndSaveTemperaturesAllUnprocessed(
    db: Db, query: Option<seq<MeasurementTemperature>>, calculator: Calculator,
    saveOk: bool, flags: BatchOutcome): (r: Phase)
    ensures query.None? ==> r.db == db && r.err == Some(PersistenceError(QueryUnprocessed))
    ensures query.Some? && !saveOk ==> r.db == db && r.err == Some(PersistenceError(InsertCalculations))
    ensures r.err.None? <==> query.Some? && saveOk && flags.BatchOk?
    ensures r.err.Some? ==> r.err.value in {PersistenceError(QueryUnprocessed), PersistenceError(InsertCalculations), FlagUpdateError}
    ensures query.Some? ==> forall c :: c in r.successes <==>
              exists i | 0 <= i < |query.value| :: CalculateTemperatureFromSingleMeasurement(calculator, query.value[i]) == Ok(c)
    ensures query.Some? && saveOk ==> r.db.calculations == db.calculations + CalculationRows(r.successes)
    ensures query.Some? && saveOk && flags.BatchOk? ==>
              && Reconciled(db.weatherUnion, r.db.weatherUnion,
                            MeasurementIds(query.value, WeatherUnionReadings), CalculationIds(r.successes, WeatherUnionReadings))
              && Reconciled(db.openWeatherMap, r.db.openWeatherMap,
                            MeasurementIds(query.value, OpenWeatherMapReadings), CalculationIds(r.successes, OpenWeatherMapReadings))
    ensures query.Some? && saveOk && flags.BatchFailed? ==>
              && r.err == Some(FlagUpdateError)
              && RaisedWithin(db.weatherUnion, r.db.weatherUnion,
                              MeasurementIds(query.value, WeatherUnionReadings), CalculationIds(r.successes, WeatherUnionReadings))
              && RaisedWithin(db.openWeatherMap, r.db.openWeatherMap,
                              MeasurementIds(query.value, OpenWeatherMapReadings), CalculationIds(r.successes, OpenWeatherMapReadings))
    ensures r.db.runs == db.runs
  {
    match query
    case None => Phase(db, [], None, Some(PersistenceError(QueryUnprocessed)))
    case Some(ms) =>
      var outcomes := CalculateAll(calculator, ms);
      var successes := Successes(outcomes);
      var logged := FirstError(outcomes);
      var saved := SaveCalculationsTemperatures(db, successes, saveOk);
      assert saveOk ==> saved.db.calculations
                          == saved.db.calculations[..|db.calculations|] + saved.db.calculations[|db.calculations|..];
      if saved.err.Some? then Phase(db, successes, logged, saved.err)
      else
        var flagged := SetFlagsTemperature(saved.db, ms, successes, flags);
        Phase(flagged.db, successes, logged, flagged.err)
  }

  /** The phase keeps each successful calculation exactly as often as it
      succeeded over the queried pairs. */
  lemma PhaseKeepsEachSuccessOnce(
    db: Db, ms: seq<MeasurementTemperature>, calculator: Calculator,
    saveOk: bool, flags: BatchOutcome, c: CalculationTemperature)
    ensures multiset(CalculateAndSaveTemperaturesAllUnprocessed(db, Some(ms), calculator, saveOk, flags).successes)[c]
              == multiset(CalculateAll(calculator, ms))[Ok(c)]
  {
    SuccessesCount(CalculateAll(calculator, ms), c);
  }

  /** The successful calculations belong to attempted pairs, so the
      succeeded IDs are a subset of the attempted IDs. */
  lemma SuccessesWithinAttempted(calculator: Calculator, ms: seq<MeasurementTemperature>)
    ensures SucceededWithinAttempted(ms, Successes(CalculateAll(calculator, ms)))
  {
    var outcomes := CalculateAll(calculator, ms);
    var cs := Successes(outcomes);
    forall k | 0 <= k < |cs|
      ensures exists i | 0 <= i < |ms| ::
                ms[i].weatherUnionId == cs[k].weatherUnionId && ms[i].openWeatherMapId == cs[k].openWeatherMapId
    {
      assert Ok(cs[k]) in outcomes;
      var i :| 0 <= i < |outcomes| && outcomes[i] == Ok(cs[k]);
      assert ms[i].weatherUnionId == cs[k].weatherUnionId;
    }
  }

  /** The calculation phase keeps "successful implies processed" on every
      row, whatever fails along the way. */
  lemma PhasePreservesInvariant(
    db: Db, query: Option<seq<MeasurementTemperature>>, calculator: Calculator,
    saveOk: bool, flags: BatchOutcome)
    requires SuccessImpliesProcessed(db)
    ensures SuccessImpliesProcessed(CalculateAndSaveTemperaturesAllUnprocessed(db, query, calculator, saveOk, flags).db)
  {
    if query.Some? && saveOk {
      var ms := query.value;
      var cs := Successes(CalculateAll(calculator, ms));
      var saved := SaveCalculationsTemperatures(db, cs, saveOk);
      SuccessesWithinAttempted(calculator, ms);
      SetFlagsPreservesInvariant(saved.db, ms, cs, flags);
    }
  }

  /** Even when calculations fail, a completed phase marks every attempted
      pair processed on both sides, so none of them is selected again. */
  lemma PhaseConsumesEveryAttemptedPair(
    db: Db, ms: seq<MeasurementTemperature>, calculator: Calculator, i: nat)
    requires i < |ms|
    ensures var r := CalculateAndSaveTemperaturesAllUnprocessed(db, Some(ms), calculator, true, BatchOk);
            && (ms[i].weatherUnionId in r.db.weatherUnion ==> r.db.weatherUnion[ms[i].weatherUnionId].flags.processed)
            && (ms[i].openWeatherMapId in r.db.openWeatherMap ==> r.db.openWeatherMap[ms[i].openWeatherMapId].flags.processed)
            && forall p | p in SelectUnprocessed(r.db) ::
                 p.weatherUnionId != ms[i].weatherUnionId && p.openWeatherMapId != ms[i].openWeatherMapId
  {
    var cs := Successes(CalculateAll(calculator, ms));
    var saved := SaveCalculationsTemperatures(db, cs, true);
    var pw := MeasurementIds(ms, WeatherUnionReadings);
    var po := MeasurementIds(ms, OpenWeatherMapReadings);
    assert pw[i] == ms[i].weatherUnionId && po[i] == ms[i].openWeatherMapId;
    AttemptedPairsNotReselected(saved.db, ms, cs);
  }

  /** A failed save sets no flag: the pairs stay selectable for the next run. */
  lemma SaveFailureKeepsPairsSelectable(
    db: Db, ms: seq<MeasurementTemperature>, calculator: Calculator, flags: BatchOutcome)
    ensures var r := CalculateAndSaveTemperaturesAllUnprocessed(db, Some(ms), calculator, false, flags);
            SelectUnprocessed(r.db) == SelectUnprocessed(db)
  {
  }

  /** When the query returned every selectable pair and the phase completes,
      nothing is left to select: consumption is complete and monotone. */
  lemma PhaseDrainsSelection(
    db: Db, ms: seq<MeasurementTemperature>, calculator: Calculator)
    requires forall p | p in SelectUnprocessed(db) :: p in ms
    ensures SelectUnprocessed(CalculateAndSaveTemperaturesAllUnprocessed(db, Some(ms), calculator, true, BatchOk).db) == {}
  {
    var r := CalculateAndSaveTemperaturesAllUnprocessed(db, Some(ms), calculator, true, BatchOk);
    var cs := Successes(CalculateAll(calculator, ms));
    var saved := SaveCalculationsTemperatures(db, cs, true);
    ReconciledIsWithin(saved.db.weatherUnion, r.db.weatherUnion,
      MeasurementIds(ms, WeatherUnionReadings), CalculationIds(cs, WeatherUnionReadings));
    ReconciledIsWithin(saved.db.openWeatherMap, r.db.openWeatherMap,
      MeasurementIds(ms, OpenWeatherMapReadings), CalculationIds(cs, OpenWeatherMapReadings));
    SelectionShrinks(saved.db, r.db, ms, cs);
    AttemptedPairsNotReselected(saved.db, ms, cs);
    assert forall p | p in SelectUnprocessed(r.db) :: p in ms;
  }

  /** A calculation row carries a weather-union ID exactly when its
      calculation does. */
  lemma RowsCarry(cs: seq<CalculationTemperature>, id: Uuid)
    ensures (exists j | 0 <= j < |CalculationRows(cs)| :: CalculationRows(cs)[j].weatherUnionId == id)
              <==> id in CalculationIds(cs, WeatherUnionReadings)
  {
    var rows, sw := CalculationRows(cs), CalculationIds(cs, WeatherUnionReadings);
    assert forall j | 0 <= j < |rows| :: rows[j].weatherUnionId == sw[j];
  }

  /** A calculation row appended after `before` carries a weather-union ID
      exactly when one of the appended calculations does. */
  lemma AppendedRowsCarry(before: seq<CalculationRow>, cs: seq<CalculationTemperature>, id: Uuid)
    ensures var all := before + CalculationRows(cs);
            (exists k | |before| <= k < |all| :: all[k].weatherUnionId == id)
              <==> id in CalculationIds(cs, WeatherUnionReadings)
  {
    var rows := CalculationRows(cs);
    var all := before + rows;
    RowsCarry(cs, id);
    if exists j | 0 <= j < |rows| :: rows[j].weatherUnionId == id {
      var j :| 0 <= j < |rows| && rows[j].weatherUnionId == id;
      assert all[|before| + j] == rows[j];
    }
    if exists k | |before| <= k < |all| :: all[k].weatherUnionId == id {
      var k :| |before| <= k < |all| && all[k].weatherUnionId == id;
      assert rows[k - |before|] == all[k];
    }
  }

  /** On the weather-union side, a completed phase newly flags a reading
      successful exactly when it newly stores a calculation row for it. */
  lemma NewRowsMatchNewSuccessFlags(
    db: Db, ms: seq<MeasurementTemperature>, calculator: Calculator, id: Uuid)
    requires id in db.weatherUnion && !db.weatherUnion[id].flags.successful
    ensures var r := CalculateAndSaveTemperaturesAllUnprocessed(db, Some(ms), calculator, true, BatchOk);
            r.db.weatherUnion[id].flags.successful <==>
              exists k | |db.calculations| <= k < |r.db.calculations| :: r.db.calculations[k].weatherUnionId == id
  {
    var r := CalculateAndSaveTemperaturesAllUnprocessed(db, Some(ms), calculator, true, BatchOk);
    AppendedRowsCarry(db.calculations, r.successes, id);
  }

  // ---------------------------------------------------------------------
  // The cron binary
  // ---------------------------------------------------------------------

  /** `main`: the collection run, then, only if it succeeded, the
      calculation phase over the state it left (`query` answers the
      selector for that state). Any returned error ends the process. */
  function CronMain(
    db: Db, newRunId: Option<Uuid>, stations: Result<seq<Station>, Error>,
    providers: ProviderCalls, storeOk: StorageOp -> bool,
    query: Db -> Option<seq<MeasurementTemperature>>, calculator: Calculator,
    saveOk: bool, flags: BatchOutcome): (r: Applied)
    ensures var collected := GetAndSaveMeasurementsCron(db, newRunId, stations, providers, storeOk);
            collected.err.Some? ==> r == Applied(collected.db, collected.err)
    ensures var collected := GetAndSaveMeasurementsCron(db, newRunId, stations, providers, storeOk);
            collected.err.None? ==> (r.err.None? <==> query(collected.db).Some? && saveOk && flags.BatchOk?)
    ensures r.err.None? ==> newRunId.Some? && r.db.runs == db.runs + {newRunId.value}
    ensures var collected := GetAndSaveMeasurementsCron(db, newRunId, stations, providers, storeOk);
            r.err.None? ==>
              && collected.err.None? && query(collected.db).Some?
              && var ms := query(collected.db).value;
                 forall i | 0 <= i < |ms| ::
                   && (ms[i].weatherUnionId in r.db.weatherUnion ==> r.db.weatherUnion[ms[i].weatherUnionId].flags.processed)
                   && (ms[i].openWeatherMapId in r.db.openWeatherMap ==> r.db.openWeatherMap[ms[i].openWeatherMapId].flags.processed)
  {
    var collected := GetAndSaveMeasurementsCron(db, newRunId, stations, providers, storeOk);
    if collected.err.Some? then Applied(collected.db, collected.err)
    else
      var phase := CalculateAndSaveTemperaturesAllUnprocessed(
        collected.db, query(collected.db), calculator, saveOk, flags);
      Applied(phase.db, phase.err)
  }

  /** The whole process keeps "successful implies processed": collection
      inserts unflagged rows and the calculation phase keeps it whatever
      fails. */
  lemma CronMainPreservesInvariant(
    db: Db, newRunId: Option<Uuid>, stations: Result<seq<Station>, Error>,
    providers: ProviderCalls, storeOk: StorageOp -> bool,
    query: Db -> Option<seq<MeasurementTemperature>>, calculator: Calculator,
    saveOk: bool, flags: BatchOutcome)
    requires SuccessImpliesProcessed(db)
    ensures SuccessImpliesProcessed(
              CronMain(db, newRunId, stations, providers, storeOk, query, calculator, saveOk, flags).db)
  {
    var collected := GetAndSaveMeasurementsCron(db, newRunId, stations, providers, storeOk);
    if newRunId.Some? && stations.Ok? {
      var g := CollectAppendAlways(providers, newRunId.value, stations.value);
      SaveRunKeepsInvariant(db, newRunId.value, g.weatherUnion, g.openWeatherMap, storeOk);
    }
    if collected.err.None? {
      PhasePreservesInvariant(collected.db, query(collected.db), calculator, saveOk, flags);
    }
  }

  /** With a query that returns every selectable pair, a clean exit leaves
      nothing to select: no pair is calculated twice across runs. */
  lemma CronMainDrainsSelection(
    db: Db, newRunId: Option<Uuid>, stations: Result<seq<Station>, Error>,
    providers: ProviderCalls, storeOk: StorageOp -> bool,
    query: Db -> Option<seq<MeasurementTemperature>>, calculator: Calculator,
    saveOk: bool, flags: BatchOutcome)
    requires forall d: Db, p: MeasurementTemperature | query(d).Some? && p in SelectUnprocessed(d) :: p in query(d).value
    ensures var r := CronMain(db, newRunId, stations, providers, storeOk, query, calculator, saveOk, flags);
            r.err.None? ==> SelectUnprocessed(r.db) == {}
  {
    var collected := GetAndSaveMeasurementsCron(db, newRunId, stations, providers, storeOk);
    if collected.err.None? && query(collected.db).Some? && saveOk && flags.BatchOk? {
      PhaseDrainsSelection(collected.db, query(collected.db).value, calculator);
    }
  }
}

=== FILE: measurement.dfy ===
/**
  server/internal/models/measurement.go: the unprocessed-pair selector
  (a join of the two reading tables on station and run), the strict-pair
  collector, in which a station contributes to both reading lists or to
  neither, and the save sequence shared by both collectors.
 */
module Measurement {
  import opened Utilities
  import opened Schema
  import opened Providers

  // ---------------------------------------------------------------------
  // Unprocessed-pair selector
  // ---------------------------------------------------------------------

  /** The join condition and the WHERE clause of the selector query. */
  predicate Eligible(w: Row<WeatherUnionColumns>, o: Row<OpenWeatherMapColumns>)
  {
    && w.stationId == o.stationId
    && w.runId == o.runId
    && !w.flags.processed
    && !o.flags.processed
    && w.columns.temperature.NotNull?
    && w.columns.humidity.NotNull?
    && o.columns.pressure.NotNull?
  }

  /** The projection of the selector query for one qualifying pair of rows. */
  function PairOf(wId: Uuid, w: Row<WeatherUnionColumns>, oId: Uuid, o: Row<OpenWeatherMapColumns>)
    : MeasurementTemperature
    requires Eligible(w, o)
  {
    MeasurementTemperature(
      wId, oId, w.stationId, w.runId,
      w.columns.temperature.value, w.columns.humidity.value, o.columns.pressure.value)
  }

  /** `GetUnprocessedDataForCalculationsTemperature`: every pair the query
      returns. The row order of the query is unspecified, so the result is a set. */
  function SelectUnprocessed(db: Db): (pairs: set<MeasurementTemperature>)
    // sound: each pair joins two stored rows of the same station and run,
    // neither side is processed, and the three inputs are non-null and copied
    ensures forall p | p in pairs ::
      && p.weatherUnionId in db.weatherUnion
      && p.openWeatherMapId in db.openWeatherMap
      && db.weatherUnion[p.weatherUnionId].stationId == p.stationId
      && db.openWeatherMap[p.openWeatherMapId].stationId == p.stationId
      && db.weatherUnion[p.weatherUnionId].runId == p.runId
      && db.openWeatherMap[p.openWeatherMapId].runId == p.runId
      && !db.weatherUnion[p.weatherUnionId].flags.processed
      && !db.openWeatherMap[p.openWeatherMapId].flags.processed
      && db.weatherUnion[p.weatherUnionId].columns.temperature == NotNull(p.temperature)
      && db.weatherUnion[p.weatherUnionId].columns.humidity == NotNull(p.humidity)
      && db.openWeatherMap[p.openWeatherMapId].columns.pressure == NotNull(p.pressure)
    // complete: every qualifying pair of stored rows is returned
    ensures forall wId, oId | wId in db.weatherUnion && oId in db.openWeatherMap &&
              Eligible(db.weatherUnion[wId], db.openWeatherMap[oId]) ::
              PairOf(wId, db.weatherUnion[wId], oId, db.openWeatherMap[oId]) in pairs
  {
    set wId, oId | wId in db.weatherUnion && oId in db.openWeatherMap &&
                   Eligible(db.weatherUnion[wId], db.openWeatherMap[oId]) ::
      PairOf(wId, db.weatherUnion[wId], oId, db.openWeatherMap[oId])
  }

  /** A weather-union reading stored without temperature or humidity, or an
      open-weather-map reading stored without pressure, is never selected:
      the provider omitted the field, DereferenceOrNil stored NULL, and the
      selector's non-null filter rejects the row. */
  lemma AbsentFieldNeverSelected(db: Db, wm: WeatherUnionMeasurement, om: OpenWeatherMapMeasurement)
    requires wm.measurementId in db.weatherUnion && db.weatherUnion[wm.measurementId] == WeatherUnionRowOf(wm)
    requires om.measurementId in db.openWeatherMap && db.openWeatherMap[om.measurementId] == OpenWeatherMapRowOf(om)
    ensures wm.data.temperature.None? || wm.data.humidity.None? ==>
              forall p | p in SelectUnprocessed(db) :: p.weatherUnionId != wm.measurementId
    ensures om.data.pressure.None? ==>
              forall p | p in SelectUnprocessed(db) :: p.openWeatherMapId != om.measurementId
  {
  }

  // ---------------------------------------------------------------------
  // Strict-pair collection
  // ---------------------------------------------------------------------

  /** The two provider calls, as oracles of station and run ID. */
  datatype ProviderCalls = ProviderCalls(
    weatherUnion: (Station, Uuid) -> Reply<WeatherUnionMeasurement>,
    openWeatherMap: (Station, Uuid) -> Reply<OpenWeatherMapMeasurement>)

  /** The two reading lists a collector builds, and the error the wait
      barrier reports (the first one, when any unit failed). */
  datatype Collection = Collection(
    weatherUnion: seq<WeatherUnionMeasurement>,
    openWeatherMap: seq<OpenWeatherMapMeasurement>,
    firstError: Option<Error>)

  /** Both provider calls for the station succeed in this run. */
  predicate BothSucceed(providers: ProviderCalls, runId: Uuid, s: Station)
  {
    providers.weatherUnion(s, runId).err.None? && providers.openWeatherMap(s, runId).err.None?
  }

  /** The error a station's unit of work returns: the weather-union call
      comes first and an error there ends the unit. */
  function StationError(providers: ProviderCalls, runId: Uuid, s: Station): (e: Option<Error>)
    ensures e.None? <==> BothSucceed(providers, runId, s)
    ensures providers.weatherUnion(s, runId).err.Some? ==> e == providers.weatherUnion(s, runId).err
    ensures providers.weatherUnion(s, runId).err.None? ==> e == providers.openWeatherMap(s, runId).err
  {
    if providers.weatherUnion(s, runId).err.Some? then providers.weatherUnion(s, runId).err
    else providers.openWeatherMap(s, runId).err
  }

  /** The stations, in input order, whose two provider calls both succeed. */
  function PairedStations(providers: ProviderCalls, runId: Uuid, stations: seq<Station>): (ps: seq<Station>)
    ensures |ps| <= |stations|
    ensures forall s :: s in ps <==> s in stations && BothSucceed(providers, runId, s)
  {
    if stations == [] then []
    else
      var rest := PairedStations(providers, runId, stations[1..]);
      assert stations == [stations[0]] + stations[1..];
      if BothSucceed(providers, runId, stations[0]) then [stations[0]] + rest else rest
  }

  /** No station is duplicated or lost: a station whose two calls succeed
      occurs among the paired stations exactly as often as in the input,
      any other station not at all. */
  lemma {:induction false} PairedStationsCount(providers: ProviderCalls, runId: Uuid, stations: seq<Station>, s: Station)
    ensures multiset(PairedStations(providers, runId, stations))[s] ==
              if BothSucceed(providers, runId, s) then multiset(stations)[s] else 0
    decreases |stations|
  {
    if stations != [] {
      assert stations == [stations[0]] + stations[1..];
      assert multiset(stations) == multiset([stations[0]]) + multiset(stations[1..]);
      PairedStationsCount(providers, runId, stations[1..], s);
    }
  }

  /** The fan-out of `GetAndSaveMeasurementsFromAPISingleRun`, as a
      sequential fold over the stations: a unit appends to both lists only
      when both calls succeeded; a failing unit appends nothing. */
  function CollectStrictPairs(providers: ProviderCalls, runId: Uuid, stations: seq<Station>): (c: Collection)
    ensures |c.weatherUnion| == |c.openWeatherMap| == |PairedStations(providers, runId, stations)|
    ensures forall i | 0 <= i < |c.weatherUnion| ::
              && c.weatherUnion[i] == providers.weatherUnion(PairedStations(providers, runId, stations)[i], runId).value
              && c.openWeatherMap[i] == providers.openWeatherMap(PairedStations(providers, runId, stations)[i], runId).value
    ensures c.firstError.None? <==> forall s | s in stations :: BothSucceed(providers, runId, s)
    ensures c.firstError.Some? ==> exists s | s in stations :: c.firstError == StationError(providers, runId, s)
  {
    if stations == [] then Collection([], [], None)
    else
      var s := stations[0];
      var rest := CollectStrictPairs(providers, runId, stations[1..]);
      assert stations == [s] + stations[1..];
      var firstError := if StationError(providers, runId, s).Some? then StationError(providers, runId, s) else rest.firstError;
      if BothSucceed(providers, runId, s) then
        Collection(
          [providers.weatherUnion(s, runId).value] + rest.weatherUnion,
          [providers.openWeatherMap(s, runId).value] + rest.openWeatherMap,
          firstError)
      else
        Collection(rest.weatherUnion, rest.openWeatherMap, firstError)
  }

  // ---------------------------------------------------------------------
  // Saving a run
  // ---------------------------------------------------------------------

  /** The three writes of a collection run, in the order they are issued. */
  const RunWrites: seq<StorageOp> := [InsertRun, InsertWeatherUnion, InsertOpenWeatherMap]

  /** The state after a sequence of storage writes, and the error that stopped it. */
  datatype Stored = Stored(db: Db, written: seq<StorageOp>, err: Option<Error>)

  /** `SaveMeasurementRun` followed by the two bulk inserts; the first
      failing write returns its error and the later writes are not issued.
      `storeOk` says which writes the database accepts; a rejected write
      leaves its table as it was. */
  function SaveRunAndMeasurements(
    db: Db, runId: Uuid,
    wus: seq<WeatherUnionMeasurement>, owms: seq<OpenWeatherMapMeasurement>,
    storeOk: StorageOp -> bool): (r: Stored)
    ensures r.written <= RunWrites
    ensures forall k | 0 <= k < |r.written| :: storeOk(r.written[k])
    ensures r.err.None? <==> r.written == RunWrites
    ensures r.err.Some? ==> && |r.written| < |RunWrites|
                            && !storeOk(RunWrites[|r.written|])
                            && r.err == Some(PersistenceError(RunWrites[|r.written|]))
    ensures r.db.runs == if InsertRun in r.written then db.runs + {runId} else db.runs
    ensures r.db.weatherUnion ==
              if InsertWeatherUnion in r.written then InsertWeatherUnionRows(db.weatherUnion, wus)
              else db.weatherUnion
    ensures r.db.openWeatherMap ==
              if InsertOpenWeatherMap in r.written then InsertOpenWeatherMapRows(db.openWeatherMap, owms)
              else db.openWeatherMap
    ensures r.db.calculations == db.calculations
  {
    if !storeOk(InsertRun) then Stored(db, [], Some(PersistenceError(InsertRun)))
    else
      var db1 := db.(runs := db.runs + {runId});
      if !storeOk(InsertWeatherUnion) then Stored(db1, [InsertRun], Some(PersistenceError(InsertWeatherUnion)))
      else
        var db2 := db1.(weatherUnion := InsertWeatherUnionRows(db1.weatherUnion, wus));
        if !storeOk(InsertOpenWeatherMap) then
          Stored(db2, [InsertRun, InsertWeatherUnion], Some(PersistenceError(InsertOpenWeatherMap)))
        else
          Stored(db2.(openWeatherMap := InsertOpenWeatherMapRows(db2.openWeatherMap, owms)), RunWrites, None)
  }

  /** The run record is written before either reading list: a stored
      reading list implies a stored run ID. */
  lemma RunSavedBeforeMeasurements(
    db: Db, runId: Uuid,
    wus: seq<WeatherUnionMeasurement>, owms: seq<OpenWeatherMapMeasurement>,
    storeOk: StorageOp -> bool)
    ensures var r := SaveRunAndMeasurements(db, runId, wus, owms, storeOk);
            (InsertWeatherUnion in r.written || InsertOpenWeatherMap in r.written) ==>
              InsertRun in r.written && r.written[0] == InsertRun && runId in r.db.runs
  {
  }

  /** Inserted readings start unflagged, so saving a run keeps "successful
      implies processed", whichever writes are accepted. */
  lemma SaveRunKeepsInvariant(
    db: Db, runId: Uuid,
    wus: seq<WeatherUnionMeasurement>, owms: seq<OpenWeatherMapMeasurement>,
    storeOk: StorageOp -> bool)
    requires SuccessImpliesProcessed(db)
    ensures SuccessImpliesProcessed(SaveRunAndMeasurements(db, runId, wus, owms, storeOk).db)
  {
    InsertWeatherUnionKeepsInvariant(db.weatherUnion, wus);
    InsertOpenWeatherMapKeepsInvariant(db.openWeatherMap, owms);
  }

  /** `GetAndSaveMeasurementsFromAPISingleRun` of the models package: one run
      ID is drawn (`newRunId`, None when generation fails), the station list
      is loaded (`stations`), all stations are collected under that one run
      ID, the wait-barrier error is only logged, and the lists are saved. */
  function GetAndSaveMeasurementsStrict(
    db: Db, newRunId: Option<Uuid>, stations: Result<seq<Station>, Error>,
    providers: ProviderCalls, storeOk: StorageOp -> bool): (r: Stored)
    ensures newRunId.None? ==> r == Stored(db, [], Some(IdGenerationError))
    ensures newRunId.Some? && stations.Err? ==> r == Stored(db, [], Some(stations.error))
    ensures r.err.None? ==> newRunId.Some? && stations.Ok?
    ensures r.err.None? ==> r.db.runs == db.runs + {newRunId.value}
    ensures newRunId.Some? && stations.Ok? ==>
              (r.err.None? <==> forall k | 0 <= k < |RunWrites| :: storeOk(RunWrites[k]))
    ensures r.db.calculations == db.calculations
  {
    match newRunId
    case None => Stored(db, [], Some(IdGenerationError))
    case Some(runId) =>
      match stations
      case Err(e) => Stored(db, [], Some(e))
      case Ok(ss) =>
        var c := CollectStrictPairs(providers, runId, ss);
        SaveRunAndMeasurements(db, runId, c.weatherUnion, c.openWeatherMap, storeOk)
  }

  /** A station whose two calls succeed has its two readings in the lists. */
  lemma PairedReadingsCollected(providers: ProviderCalls, runId: Uuid, ss: seq<Station>, s: Station)
    requires s in ss && BothSucceed(providers, runId, s)
    ensures providers.weatherUnion(s, runId).value in CollectStrictPairs(providers, runId, ss).weatherUnion
    ensures providers.openWeatherMap(s, runId).value in CollectStrictPairs(providers, runId, ss).openWeatherMap
  {
    var ps := PairedStations(providers, runId, ss);
    var c := CollectStrictPairs(providers, runId, ss);
    assert s in ps;
    var i :| 0 <= i < |ps| && ps[i] == s;
    assert c.weatherUnion[i] == providers.weatherUnion(s, runId).value;
    assert c.openWeatherMap[i] == providers.openWeatherMap(s, runId).value;
  }

  /** Entry k of both collected lists comes from the same station, one
      whose two calls succeeded. */
  lemma CollectedFromPairedStation(providers: ProviderCalls, runId: Uuid, stations: seq<Station>, k: nat)
    requires k < |CollectStrictPairs(providers, runId, stations).weatherUnion|
    ensures var c := CollectStrictPairs(providers, runId, stations);
            exists s | s in stations && BothSucceed(providers, runId, s) ::
              && c.weatherUnion[k] == providers.weatherUnion(s, runId).value
              && c.openWeatherMap[k] == providers.openWeatherMap(s, runId).value
  {
    var ps := PairedStations(providers, runId, stations);
    assert ps[k] in ps;
  }

  /** With the ID drawn, the stations loaded and every write accepted, the
      reading tables are the old ones with both collected lists inserted. */
  lemma StrictRunInsertsCollected(
    db: Db, newRunId: Option<Uuid>, stations: Result<seq<Station>, Error>,
    providers: ProviderCalls, storeOk: StorageOp -> bool)
    requires newRunId.Some? && stations.Ok?
    requires forall k | 0 <= k < |RunWrites| :: storeOk(RunWrites[k])
    ensures var c := CollectStrictPairs(providers, newRunId.value, stations.value);
            var r := GetAndSaveMeasurementsStrict(db, newRunId, stations, providers, storeOk);
            && r.db.weatherUnion == InsertWeatherUnionRows(db.weatherUnion, c.weatherUnion)
            && r.db.openWeatherMap == InsertOpenWeatherMapRows(db.openWeatherMap, c.openWeatherMap)
  {
    assert storeOk(RunWrites[0]) && storeOk(RunWrites[1]) && storeOk(RunWrites[2]);
  }

  /** After a strict run whose writes all succeed, every station whose two
      calls succeeded has its readings stored under their IDs. Each stored
      row is exactly the reading's row unless a different reading collected
      in the same run carries the same ID (the later one wins). */
  lemma StrictRunStoresPairedReadings(
    db: Db, newRunId: Option<Uuid>, stations: Result<seq<Station>, Error>,
    providers: ProviderCalls, storeOk: StorageOp -> bool, s: Station)
    requires newRunId.Some? && stations.Ok?
    requires forall k | 0 <= k < |RunWrites| :: storeOk(RunWrites[k])
    requires s in stations.value && BothSucceed(providers, newRunId.value, s)
    ensures var r := GetAndSaveMeasurementsStrict(db, newRunId, stations, providers, storeOk);
            var wm := providers.weatherUnion(s, newRunId.value).value;
            && wm.measurementId in r.db.weatherUnion
            && ((forall s' | s' in stations.value && BothSucceed(providers, newRunId.value, s') &&
                             providers.weatherUnion(s', newRunId.value).value.measurementId == wm.measurementId ::
                   providers.weatherUnion(s', newRunId.value).value == wm)
                ==> r.db.weatherUnion[wm.measurementId] == WeatherUnionRowOf(wm))
    ensures var r := GetAndSaveMeasurementsStrict(db, newRunId, stations, providers, storeOk);
            var om := providers.openWeatherMap(s, newRunId.value).value;
            && om.measurementId in r.db.openWeatherMap
            && ((forall s' | s' in stations.value && BothSucceed(providers, newRunId.value, s') &&
                             providers.openWeatherMap(s', newRunId.value).value.measurementId == om.measurementId ::
                   providers.openWeatherMap(s', newRunId.value).value == om)
                ==> r.db.openWeatherMap[om.measurementId] == OpenWeatherMapRowOf(om))
  {
    var runId := newRunId.value;
    var c := CollectStrictPairs(providers, runId, stations.value);
    StrictRunInsertsCollected(db, newRunId, stations, providers, storeOk);
    PairedReadingsCollected(providers, runId, stations.value, s);
    var wm := providers.weatherUnion(s, runId).value;
    var om := providers.openWeatherMap(s, runId).value;
    var i :| 0 <= i < |c.weatherUnion| && c.weatherUnion[i] == wm;
    var j :| 0 <= j < |c.openWeatherMap| && c.openWeatherMap[j] == om;
    if forall s' | s' in stations.value && BothSucceed(providers, runId, s') &&
                   providers.weatherUnion(s', runId).value.measurementId == wm.measurementId ::
         providers.weatherUnion(s', runId).value == wm {
      forall k | 0 <= k < |c.weatherUnion| && c.weatherUnion[k].measurementId == wm.measurementId
        ensures c.weatherUnion[k] == wm
      {
        CollectedFromPairedStation(providers, runId, stations.value, k);
      }
      InsertWeatherUnionStoresRow(db.weatherUnion, c.weatherUnion, i);
    } else {
      assert wm.measurementId in (set k | 0 <= k < |c.weatherUnion| :: c.weatherUnion[k].measurementId);
    }
    if forall s' | s' in stations.value && BothSucceed(providers, runId, s') &&
                   providers.openWeatherMap(s', runId).value.measurementId == om.measurementId ::
         providers.openWeatherMap(s', runId).value == om {
      forall k | 0 <= k < |c.openWeatherMap| && c.openWeatherMap[k].measurementId == om.measurementId
        ensures c.openWeatherMap[k] == om
      {
        CollectedFromPairedStation(providers, runId, stations.value, k);
      }
      InsertOpenWeatherMapStoresRow(db.openWeatherMap, c.openWeatherMap, j);
    } else {
      assert om.measurementId in (set k | 0 <= k < |c.openWeatherMap| :: c.openWeatherMap[k].measurementId);
    }
  }

}

=== FILE: providers.dfy ===
/**
  How a provider reading becomes a stored row: every optional payload field
  goes through DereferenceOrNil, so an absent field is stored as NULL, and
  a new row starts with both processing flags cleared
  (server/internal/models/weatherUnion.go, server/internal/models/openWeather.go).
 */
module Providers {
  import opened Utilities
  import opened Schema

  /** The row inserted for one weather-union reading. */
  function WeatherUnionRowOf(m: WeatherUnionMeasurement): (row: Row<WeatherUnionColumns>)
    ensures row.stationId == m.stationId && row.runId == m.runId
    ensures row.flags == Unflagged
    ensures NullableToOption(row.columns.temperature) == m.data.temperature
    ensures NullableToOption(row.columns.humidity) == m.data.humidity
    ensures NullableToOption(row.columns.message) == m.data.message
    ensures NullableToOption(row.columns.deviceType) == m.data.deviceType
    ensures NullableToOption(row.columns.windSpeed) == m.data.windSpeed
    ensures NullableToOption(row.columns.windDirection) == m.data.windDirection
    ensures NullableToOption(row.columns.rainIntensity) == m.data.rainIntensity
    ensures NullableToOption(row.columns.rainAccumulation) == m.data.rainAccumulation
  {
    var d := m.data;
    var columns := WeatherUnionColumns(
      DereferenceOrNil(d.message),
      DereferenceOrNil(d.deviceType),
      DereferenceOrNil(d.temperature),
      DereferenceOrNil(d.humidity),
      DereferenceOrNil(d.windSpeed),
      DereferenceOrNil(d.windDirection),
      DereferenceOrNil(d.rainIntensity),
      DereferenceOrNil(d.rainAccumulation));
    DereferenceOrNilRoundTrip(d.message);
    DereferenceOrNilRoundTrip(d.deviceType);
    DereferenceOrNilRoundTrip(d.temperature);
    DereferenceOrNilRoundTrip(d.humidity);
    DereferenceOrNilRoundTrip(d.windSpeed);
    DereferenceOrNilRoundTrip(d.windDirection);
    DereferenceOrNilRoundTrip(d.rainIntensity);
    DereferenceOrNilRoundTrip(d.rainAccumulation);
    Row(m.stationId, m.runId, columns, Unflagged)
  }

  /** The row inserted for one open-weather-map reading. */
  function OpenWeatherMapRowOf(m: OpenWeatherMapMeasurement): (row: Row<OpenWeatherMapColumns>)
    ensures row.stationId == m.stationId && row.runId == m.runId
    ensures row.flags == Unflagged
    ensures NullableToOption(row.columns.pressure) == m.data.pressure
    ensures NullableToOption(row.columns.temperature) == m.data.temperature
    ensures NullableToOption(row.columns.humidity) == m.data.humidity
    ensures NullableToOption(row.columns.timeZone) == m.data.timeZone
    ensures NullableToOption(row.columns.feelsLike) == m.data.feelsLike
    ensures NullableToOption(row.columns.dewPoint) == m.data.dewPoint
    ensures NullableToOption(row.columns.windSpeed) == m.data.windSpeed
    ensures NullableToOption(row.columns.windDirection) == m.data.windDirection
  {
    var d := m.data;
    var columns := OpenWeatherMapColumns(
      DereferenceOrNil(d.timeZone),
      DereferenceOrNil(d.temperature),
      DereferenceOrNil(d.feelsLike),
      DereferenceOrNil(d.pressure),
      DereferenceOrNil(d.humidity),
      DereferenceOrNil(d.dewPoint),
      DereferenceOrNil(d.windSpeed),
      DereferenceOrNil(d.windDirection));
    DereferenceOrNilRoundTrip(d.timeZone);
    DereferenceOrNilRoundTrip(d.temperature);
    DereferenceOrNilRoundTrip(d.feelsLike);
    DereferenceOrNilRoundTrip(d.pressure);
    DereferenceOrNilRoundTrip(d.humidity);
    DereferenceOrNilRoundTrip(d.dewPoint);
    DereferenceOrNilRoundTrip(d.windSpeed);
    DereferenceOrNilRoundTrip(d.windDirection);
    Row(m.stationId, m.runId, columns, Unflagged)
  }

  /** Bulk insert of weather-union readings, in list order (a later
      reading with the same ID replaces an earlier one). */
  function InsertWeatherUnionRows(t: Table<WeatherUnionColumns>, ms: seq<WeatherUnionMeasurement>)
    : (t': Table<WeatherUnionColumns>)
    ensures t'.Keys == t.Keys + (set i | 0 <= i < |ms| :: ms[i].measurementId)
    ensures forall id | id in t && (forall i | 0 <= i < |ms| :: ms[i].measurementId != id) ::
              t'[id] == t[id]
    ensures forall i | 0 <= i < |ms| :: t'[ms[i].measurementId].flags == Unflagged
    decreases |ms|
  {
    if ms == [] then t
    else
      var t' := InsertWeatherUnionRows(t[ms[0].measurementId := WeatherUnionRowOf(ms[0])], ms[1..]);
      assert forall i | 1 <= i < |ms| :: ms[i] == ms[1..][i - 1];
      assert forall j | 0 <= j < |ms[1..]| :: ms[1..][j] == ms[j + 1];
      t'
  }

  /** Bulk insert of open-weather-map readings, in list order. */
  function InsertOpenWeatherMapRows(t: Table<OpenWeatherMapColumns>, ms: seq<OpenWeatherMapMeasurement>)
    : (t': Table<OpenWeatherMapColumns>)
    ensures t'.Keys == t.Keys + (set i | 0 <= i < |ms| :: ms[i].measurementId)
    ensures forall id | id in t && (forall i | 0 <= i < |ms| :: ms[i].measurementId != id) ::
              t'[id] == t[id]
    ensures forall i | 0 <= i < |ms| :: t'[ms[i].measurementId].flags == Unflagged
    decreases |ms|
  {
    if ms == [] then t
    else
      var t' := InsertOpenWeatherMapRows(t[ms[0].measurementId := OpenWeatherMapRowOf(ms[0])], ms[1..]);
      assert forall i | 1 <= i < |ms| :: ms[i] == ms[1..][i - 1];
      assert forall j | 0 <= j < |ms[1..]| :: ms[1..][j] == ms[j + 1];
      t'
  }

  /** A reading whose ID no different reading in the list shares is stored
      as exactly its own row. */
  lemma {:induction false} InsertWeatherUnionStoresRow(t: Table<WeatherUnionColumns>, ms: seq<WeatherUnionMeasurement>, i: nat)
    requires i < |ms|
    requires forall j | 0 <= j < |ms| && ms[j].measurementId == ms[i].measurementId :: ms[j] == ms[i]
    ensures InsertWeatherUnionRows(t, ms)[ms[i].measurementId] == WeatherUnionRowOf(ms[i])
    decreases |ms|
  {
    var rest := ms[1..];
    var t1 := t[ms[0].measurementId := WeatherUnionRowOf(ms[0])];
    assert InsertWeatherUnionRows(t, ms) == InsertWeatherUnionRows(t1, rest);
    assert forall k | 0 <= k < |rest| :: rest[k] == ms[k + 1];
    if i == 0 {
      if j :| 0 <= j < |rest| && rest[j].measurementId == ms[0].measurementId {
        assert rest[j] == ms[0];
        InsertWeatherUnionStoresRow(t1, rest, j);
      }
    } else {
      assert rest[i - 1] == ms[i];
      InsertWeatherUnionStoresRow(t1, rest, i - 1);
    }
  }

  /** A reading whose ID no different reading in the list shares is stored
      as exactly its own row. */
  lemma {:induction false} InsertOpenWeatherMapStoresRow(t: Table<OpenWeatherMapColumns>, ms: seq<OpenWeatherMapMeasurement>, i: nat)
    requires i < |ms|
    requires forall j | 0 <= j < |ms| && ms[j].measurementId == ms[i].measurementId :: ms[j] == ms[i]
    ensures InsertOpenWeatherMapRows(t, ms)[ms[i].measurementId] == OpenWeatherMapRowOf(ms[i])
    decreases |ms|
  {
    var rest := ms[1..];
    var t1 := t[ms[0].measurementId := OpenWeatherMapRowOf(ms[0])];
    assert InsertOpenWeatherMapRows(t, ms) == InsertOpenWeatherMapRows(t1, rest);
    assert forall k | 0 <= k < |rest| :: rest[k] == ms[k + 1];
    if i == 0 {
      if j :| 0 <= j < |rest| && rest[j].measurementId == ms[0].measurementId {
        assert rest[j] == ms[0];
        InsertOpenWeatherMapStoresRow(t1, rest, j);
      }
    } else {
      assert rest[i - 1] == ms[i];
      InsertOpenWeatherMapStoresRow(t1, rest, i - 1);
    }
  }

  /** Inserted rows start unflagged, so the insert keeps "successful
      implies processed". */
  lemma InsertWeatherUnionKeepsInvariant(t: Table<WeatherUnionColumns>, ms: seq<WeatherUnionMeasurement>)
    requires SuccessfulIsProcessed(t)
    ensures SuccessfulIsProcessed(InsertWeatherUnionRows(t, ms))
  {
    var t' := InsertWeatherUnionRows(t, ms);
    forall id | id in t'
      ensures t'[id].flags.successful ==> t'[id].flags.processed
    {
      if i :| 0 <= i < |ms| && ms[i].measurementId == id {
        assert t'[ms[i].measurementId].flags == Unflagged;
      }
    }
  }

  /** Inserted rows start unflagged, so the insert keeps "successful
      implies processed". */
  lemma InsertOpenWeatherMapKeepsInvariant(t: Table<OpenWeatherMapColumns>, ms: seq<OpenWeatherMapMeasurement>)
    requires SuccessfulIsProcessed(t)
    ensures SuccessfulIsProcessed(InsertOpenWeatherMapRows(t, ms))
  {
    var t' := InsertOpenWeatherMapRows(t, ms);
    forall id | id in t'
      ensures t'[id].flags.successful ==> t'[id].flags.processed
    {
      if i :| 0 <= i < |ms| && ms[i].measurementId == id {
        assert t'[ms[i].measurementId].flags == Unflagged;
      }
    }
  }
}

=== FILE: schema.dfy ===
/**
  The entities the measurement pipeline works on: stations, provider
  payloads with optional fields, the reading tables with their two
  processing flags, the pairs the selector returns, the derived
  calculations, and the errors the pipeline distinguishes.
 */
module Schema {
  import opened Utilities

  /** A UUID; only equality matters to the pipeline. */
  type Uuid = nat

  /** A monitored station, as read from the station catalogue. */
  datatype Station = Station(
    stationId: Uuid,
    localityId: string,
    latitude: string,
    longitude: string)

  /** The locality payload of the weather-union provider: every field may be absent. */
  datatype WeatherUnionData = WeatherUnionData(
    message: Option<string>,
    deviceType: Option<int>,
    temperature: Option<real>,
    humidity: Option<real>,
    windSpeed: Option<real>,
    windDirection: Option<real>,
    rainIntensity: Option<real>,
    rainAccumulation: Option<real>)

  /** The current-conditions payload of the open-weather-map provider. */
  datatype OpenWeatherMapData = OpenWeatherMapData(
    timeZone: Option<string>,
    temperature: Option<real>,
    feelsLike: Option<real>,
    pressure: Option<real>,
    humidity: Option<real>,
    dewPoint: Option<real>,
    windSpeed: Option<real>,
    windDirection: Option<real>)

  /** One provider reading for one station within one run, as a provider call returns it. */
  datatype WeatherUnionMeasurement = WeatherUnionMeasurement(
    measurementId: Uuid, stationId: Uuid, runId: Uuid, data: WeatherUnionData)

  datatype OpenWeatherMapMeasurement = OpenWeatherMapMeasurement(
    measurementId: Uuid, stationId: Uuid, runId: Uuid, data: OpenWeatherMapData)

  /** Stored measured columns of a weather-union reading. */
  datatype WeatherUnionColumns = WeatherUnionColumns(
    message: Nullable<string>,
    deviceType: Nullable<int>,
    temperature: Nullable<real>,
    humidity: Nullable<real>,
    windSpeed: Nullable<real>,
    windDirection: Nullable<real>,
    rainIntensity: Nullable<real>,
    rainAccumulation: Nullable<real>)

  /** Stored measured columns of an open-weather-map reading. */
  datatype OpenWeatherMapColumns = OpenWeatherMapColumns(
    timeZone: Nullable<string>,
    temperature: Nullable<real>,
    feelsLike: Nullable<real>,
    pressure: Nullable<real>,
    humidity: Nullable<real>,
    dewPoint: Nullable<real>,
    windSpeed: Nullable<real>,
    windDirection: Nullable<real>)

  /** The two processing flags every reading row carries. */
  datatype Flags = Flags(processed: bool, successful: bool)

  const Unflagged := Flags(false, false)

  datatype FlagColumn = Processed | Successful

  function FlagValue(f: Flags, column: FlagColumn): bool
  {
    match column
    case Processed => f.processed
    case Successful => f.successful
  }

  /** A stored reading: the station and run it belongs to, its measured
      columns, and its flags. The table maps the reading ID to the row. */
  datatype Row<C> = Row(stationId: Uuid, runId: Uuid, columns: C, flags: Flags)

  type Table<C> = map<Uuid, Row<C>>

  /** One row of the selector's result: a weather-union and an
      open-weather-map reading of the same station and run, with the three
      inputs of the calculation. */
  datatype MeasurementTemperature = MeasurementTemperature(
    weatherUnionId: Uuid,
    openWeatherMapId: Uuid,
    stationId: Uuid,
    runId: Uuid,
    temperature: real,
    humidity: real,
    pressure: real)

  /** A derived result as the calculation step builds it. */
  datatype CalculationTemperature = CalculationTemperature(
    calculationId: Uuid,
    weatherUnionId: Uuid,
    openWeatherMapId: Uuid,
    methodLabel: string,
    dewPoint: real,
    wetBulb: real)

  /** A row of the calculations table: the open-weather-map ID is not a column. */
  datatype CalculationRow = CalculationRow(
    calculationId: Uuid,
    weatherUnionId: Uuid,
    methodLabel: string,
    dewPoint: real,
    wetBulb: real)

  /** The persisted state the pipeline reads and writes. */
  datatype Db = Db(
    runs: set<Uuid>,
    weatherUnion: Table<WeatherUnionColumns>,
    openWeatherMap: Table<OpenWeatherMapColumns>,
    calculations: seq<CalculationRow>)

  /** The storage operations of the pipeline, each of which may fail on its own. */
  datatype StorageOp =
    | InsertRun
    | InsertWeatherUnion
    | InsertOpenWeatherMap
    | InsertCalculations
    | QueryStations
    | QueryUnprocessed

  datatype Error =
    | IdGenerationError
    | ProviderError(code: int)
    | ProcessError
    | DecodeError
    | PersistenceError(op: StorageOp)
    | FlagUpdateError

  /** A Go `(value, error)` return: the value is present even when the error is set. */
  datatype Reply<T> = Reply(value: T, err: Option<Error>)

  /** Every successful-flagged row of the table is also processed-flagged. */
  ghost predicate SuccessfulIsProcessed<C>(t: Table<C>)
  {
    forall id | id in t :: t[id].flags.successful ==> t[id].flags.processed
  }

  /** The flag invariant of both reading tables. */
  ghost predicate SuccessImpliesProcessed(db: Db)
  {
    SuccessfulIsProcessed(db.weatherUnion) && SuccessfulIsProcessed(db.openWeatherMap)
  }
}

=== FILE: script_output.dfy ===
/**
  The JSON object the wet-bulb script prints (scripts/wet_bulb_temperature.py)
  and how the Go side decodes it into its `Temperature` struct
  (server/internal/models/calculation.go): each struct field takes the
  member named by its JSON tag, and keeps the zero value when the object
  has no such member.
 */
module ScriptOutput {

  /** A JSON object whose members are all numbers, keyed by member name. */
  type JsonObject = map<string, real>

  /** The decoded dew-point and wet-bulb temperatures. */
  datatype Temperature = Temperature(dewPoint: real, wetBulb: real)

  /** The member names the two struct fields are decoded from. */
  datatype FieldTags = FieldTags(dewPoint: string, wetBulb: string)

  /** The member names the script writes. */
  const ScriptDewPointKey: string := "dew_point_temperature"
  const ScriptWetBulbKey: string := "wet_bulb_temperature"

  /** The JSON tags declared on the Go struct. */
  const DeclaredTags := FieldTags("temperature_dew_point", "temperature_wet_bulb")

  /** Tags that name the members the script writes. */
  const ScriptTags := FieldTags(ScriptDewPointKey, ScriptWetBulbKey)

  /** The object the script prints for its two estimates. */
  function ScriptJson(dewPoint: real, wetBulb: real): (obj: JsonObject)
    ensures obj.Keys == {ScriptDewPointKey, ScriptWetBulbKey}
    ensures obj[ScriptDewPointKey] == dewPoint && obj[ScriptWetBulbKey] == wetBulb
  {
    map[ScriptDewPointKey := dewPoint, ScriptWetBulbKey := wetBulb]
  }

  /** Decoding into a zero-initialised struct: a field whose tag names a
      member takes that member's value; otherwise it stays 0.0. Members
      that match no tag are ignored, and that is not an error. */
  function Unmarshal(obj: JsonObject, tags: FieldTags): (t: Temperature)
    ensures tags.dewPoint in obj ==> t.dewPoint == obj[tags.dewPoint]
    ensures tags.dewPoint !in obj ==> t.dewPoint == 0.0
    ensures tags.wetBulb in obj ==> t.wetBulb == obj[tags.wetBulb]
    ensures tags.wetBulb !in obj ==> t.wetBulb == 0.0
  {
    Temperature(
      if tags.dewPoint in obj then obj[tags.dewPoint] else 0.0,
      if tags.wetBulb in obj then obj[tags.wetBulb] else 0.0)
  }

  /** As written: the declared tags name no member of the script's object,
      so every decoded calculation is 0.0 / 0.0 whatever the script printed. */
  lemma DeclaredTagsLoseScriptValues(dewPoint: real, wetBulb: real)
    ensures Unmarshal(ScriptJson(dewPoint, wetBulb), DeclaredTags) == Temperature(0.0, 0.0)
  {
    assert DeclaredTags.dewPoint[0] != ScriptDewPointKey[0];
    assert DeclaredTags.dewPoint[0] != ScriptWetBulbKey[0];
    assert DeclaredTags.wetBulb[0] != ScriptDewPointKey[0];
    assert DeclaredTags.wetBulb[0] != ScriptWetBulbKey[0];
  }

  /** A concrete input: the script reports 12.5 and 20.0, the calculation
      stores 0.0 and 0.0. */
  lemma DeclaredTagsCounterexample()
    ensures Unmarshal(ScriptJson(12.5, 20.0), DeclaredTags) != Temperature(12.5, 20.0)
  {
    DeclaredTagsLoseScriptValues(12.5, 20.0);
  }

  /** Corrected: with tags that name the script's members, decoding returns
      exactly the two values the script printed. */
  lemma ScriptTagsRoundTrip(dewPoint: real, wetBulb: real)
    ensures Unmarshal(ScriptJson(dewPoint, wetBulb), ScriptTags) == Temperature(dewPoint, wetBulb)
  {
  }
}

=== FILE: utilities.dfy ===
/**
  Option values for Go pointers, nullable SQL column values, and the
  dereference-or-nil step that maps the first onto the second
  (server/internal/utilities/utilities.go).
 */
module Utilities {

  /** A Go pointer field: nil, or a pointer to a value. */
  datatype Option<+T> = None | Some(value: T)

  /** A value bound to a SQL column: NULL, or a proper value. */
  datatype Nullable<+T> = Null | NotNull(value: T)

  /** The conventional value-or-error pair. */
  datatype Result<+T, +E> = Ok(value: T) | Err(error: E)

  /** `DereferenceOrNil`: a non-nil pointer yields its pointee, a nil pointer
      yields NULL. NULL is a value of its own, distinct from every proper
      value, so a nil pointer is never stored as the zero value of T. */
  function DereferenceOrNil<T>(p: Option<T>): (c: Nullable<T>)
    ensures c.NotNull? <==> p.Some?
    ensures p.Some? ==> c.value == p.value
  {
    match p
    case Some(v) => NotNull(v)
    case None => Null
  }

  /** Reading a column back into a pointer-like option. */
  function NullableToOption<T>(c: Nullable<T>): (p: Option<T>)
    ensures p.Some? <==> c.NotNull?
  {
    match c
    case NotNull(v) => Some(v)
    case Null => None
  }

  /** Nothing is lost: the column value determines the original pointer. */
  lemma DereferenceOrNilRoundTrip<T>(p: Option<T>)
    ensures NullableToOption(DereferenceOrNil(p)) == p
  {
  }

  /** Distinct pointers (by value) give distinct column values. */
  lemma DereferenceOrNilInjective<T>(p: Option<T>, q: Option<T>)
    requires DereferenceOrNil(p) == DereferenceOrNil(q)
    ensures p == q
  {
    DereferenceOrNilRoundTrip(p);
    DereferenceOrNilRoundTrip(q);
  }
}
